=== FILE: README.md ===
# Budget tracker core, modelled in Dafny

This project models the core logic of a small budget-tracking web application
(FastAPI + SQLAlchemy over SQLite). The application keeps managers, accounts
(general-ledger keys), budget line items and actual transaction items. Its home
page shows budget against actuals. The model covers five pieces:

- **Line-item view** (`Reconcile`, `ReconcileProofs`, `Ordering`). Budget and
  actual items are joined on the composite key `(acct5, line)`. The result is
  one row per key with the budget amount, the actual amount, both descriptions
  and `variance = budget - actual`. The rows are sorted by key under Python's
  string ordering. The join is one pure function with a `Mode`:
  - `Accumulate` sums the actual amounts of a key (the home, manager-edit and
    account-edit pages).
  - `Overwrite` keeps only the last amount (the actual-item edit page).

  The model keeps the Python dict's insertion order and then sorts it, as the
  code does. `Ordering.SortedOrderUnique` shows the order of the keys does not
  depend on the insertion order. When several items share a key, the row's
  contents still follow the order of the inputs
  (`ReconcileProofs.ListingOrderDecidesRow`).
- **Line normalisation** (`Lines`, `Decimal`). `pad2` keeps the digits,
  zero-pads them to width two and keeps the last two characters. This module
  also holds the numeric reading of a stored line used by
  `next_line_for_account`.
- **Record store** (`Crud`, `CrudProofs`, `Models`, `Schemas`). There are four
  id-keyed tables. Each has create/get/update/delete, written as pure
  transitions from one `Store` to the next.
  - A missing id gives the `None`/`False` sentinel.
  - A commit that breaks a table constraint returns `IntegrityError`. The
    constraints are the primary key, the unique `Account.key`, and the unique
    `(acct5, line, datefrom)` of budget items.
  - `seq` is assigned as "largest + 5, else 1.0".
  - `next_line_for_account` computes "largest line + 1, at least two digits".
- **Server-side auth** (`Auth`). The `Auth` helper reads a request's parsed
  cookie map: `decrypt_key`, `is_authenticated`, `is_admin`, `is_manager` and
  the user name and id decoded at construction.
- **Browser-side cookies** (`Cookies`). These are `getCookie` over the raw
  `document.cookie` string (split on `;`, trimmed, first `name=` entry wins),
  `isAdmin`, `isManager` and `getUsername`.

Amounts and `seq` values are Dafny `real`s (exact, with no float rounding). A
stored line's numeric value is a `nat`. Strings are `seq<char>` compared by
code point, as Python compares `str`. The foreign decoders are function
parameters: `base64.b64decode(...).decode('ascii')`, `decodeURIComponent` and
`atob`.

Three facts of the code shape the store:

- **Deleting a manager clears the `manager_id` of its accounts.**
  `Manager.accounts` is a SQLAlchemy relationship with no delete cascade
  (models.py:10). On delete, the ORM sets the children's foreign key to NULL,
  and `Crud.DeleteManager` does the same.
- **Manager references are not checked.** SQLite's foreign-key enforcement is
  never switched on (db.py sets no pragma). So `create_account` and
  `update_account` store any `manager_id` they are given.
- **crud.py never writes a transaction date.** Create stores `None` and
  update clears it (crud.py:92, 103), because the input shapes have no
  `tr_date`. The actual-item create route requires a `tr_date` form field
  (main.py:209), but `LineItemCreate` drops it. The actual-item edit route
  sets the date afterwards (main.py:320-324). The routes are left out.

## Model

| member | source | states |
|---|---|---|
| Lines.KeepDigits | main.py:32 | the filtered string is all ASCII digits, no longer than the input, and equal to the input when the input is already all digits |
| Lines.KeepDigitsAppend | main.py:32 | filtering digits distributes over concatenation |
| Lines.KeepDigitsOne | main.py:32 | a single digit is kept and any other single character is dropped; with the distribution over concatenation this fixes the filter on every input: the input's digits, in order, and nothing else |
| Lines.Pad2 | main.py:31-33 | for every input string the normalised line has exactly two characters and both are decimal digits |
| Lines.Pad2Shape | main.py:33 | with at least two digits the result is the last two digits; with fewer it is the digits left-padded with zeros |
| Lines.Pad2Value | main.py:31-33 | the number the result spells is the number spelled by the input's digits, modulo 100 |
| Lines.Pad2Idempotent | main.py:31-33 | normalising an already normalised line returns it unchanged |
| Lines.Pad2PadsShortLines | main.py:31-33 | "1" becomes "01", "" becomes "00", and "a1-" becomes "01" (non-digits dropped before padding) |
| Lines.Pad2KeepsLastTwo | main.py:33 | "23" stays "23" and "123" becomes "23" |
| Lines.LineValue | crud.py:117 | a line made only of digits reads as the number it spells (SQLite's CAST to REAL, truncated by int) |
| Decimal.ZFill | main.py:33 | zfill on a digit string pads on the left with zeros to the width, keeps the original as a suffix, and keeps its numeric value |
| Decimal.DecimalOf | crud.py:119 | str(n) is a digit string without a leading zero whose value is n |
| Ordering.TextualNotNumeric | main.py:72 | keys sort as text, so line "10" sorts strictly before line "2" of the same account |
| Ordering.KeyLtTransitive | main.py:72 | the strict tuple order on (acct5, line) is transitive |
| Ordering.Sort | main.py:72 | sorting distinct keys yields the same keys, equally many, in strictly ascending (acct5, line) order |
| Ordering.SortedOrderUnique | main.py:72 | two strictly ascending sequences with the same keys are equal, so the order of the rows' keys does not depend on the dict's insertion order |
| Reconcile.Join | main.py:43-72 | every row of the view has variance equal to its budget amount minus its actual amount |
| Reconcile.HomeView | main.py:36-72 | the home page view of the listed budget and actual items, accumulating actual amounts; every row has variance = budget - actual |
| ReconcileProofs.ListingOrderDecidesRow | main.py:36-47 | two budget items on one key, listed in either order, give home views with different budget amounts: the item listed last wins |
| ReconcileProofs.TwoBudgetItemsOneKey | main.py:44-47 | two budget items on one key and no actual items give one row showing the budget amount of the item listed second |
| ReconcileProofs.HomeViewCoversItems | main.py:36-72 | every listed budget or actual item has a home-page row under its (acct5, line) key, and every row's key is that of some listed item |
| ReconcileProofs.BudgetLookupSpec | main.py:43 | the lookup holds exactly the budget keys, each mapped to the description of the last budget item with that key |
| ReconcileProofs.SeedBudgetSpec | main.py:44-47 | after the budget loop the entries are exactly the budget keys, each with the last budget item's description and amount, actual 0 and no actual description |
| ReconcileProofs.AddActualsSpec | main.py:48-61 | after the actuals loop the entries are exactly the keys of either source, each equal to the independently defined expected entry for the mode |
| ReconcileProofs.JoinCoversSources | main.py:44-63 | every key of a budget or actual item appears in the view, and every row's key comes from one of them |
| ReconcileProofs.JoinSorted | main.py:72 | rows are strictly ascending by (acct5, line), so no key appears twice |
| ReconcileProofs.JoinRowContents | main.py:43-71 | each row holds the last budget item's amount and description (0 and None without one), the summed or last actual amount per mode, and the last actual item's description (None without one) |
| ReconcileProofs.ActualOnlyRow | main.py:50-58 | a key found only among actual items has budget 0, no budget description and an actual description |
| ReconcileProofs.AccumulateSumsActuals | main.py:59-61 | on the home page a row's actual amount is the total of all actual items with its key |
| ReconcileProofs.OverwriteKeepsLastActual | main.py:292-294 | on the actual-item edit page a row's actual amount is that of the last actual item with its key alone |
| ReconcileProofs.SingleKeyView | main.py:44-72 | postings that all share one key produce exactly one row, carrying that key |
| ReconcileProofs.AccumulateExample | main.py:48-61 | actual items of 100 then 50 on one key show 150, the second description, budget 0 and variance -150 |
| ReconcileProofs.OverwriteDropsEarlierAmounts | main.py:281-294 | the same two items on the edit page show 50 and variance -50, which differs from the sum |
| ReconcileProofs.LastBudgetItemWins | main.py:45-47 | two budget items of one key show the last one's amount and description, not a total |
| Schemas.ParseManagerBase | schemas.py:4-5 | a manager name is accepted exactly when it is non-empty, and is kept as given |
| Schemas.ParseManagerCreate | schemas.py:7-8 | a create request carries the id and is accepted exactly when the name is non-empty |
| Crud.GetManager | crud.py:12-13 | the stored manager exactly when the id is present, otherwise None; in a valid store the returned record carries the id asked for |
| Crud.CreateManager | crud.py:15-17 | create fails with a primary-key violation exactly when the id exists; otherwise get returns the new manager with the supplied fields, and nothing else changes |
| Crud.UpdateManager | crud.py:19-24 | a missing id returns None and leaves the store unchanged; otherwise only the name changes and the store stays valid |
| Crud.DeleteManager | crud.py:26-30 | returns whether the id existed; a miss changes nothing; a hit removes only that manager and clears the manager reference of exactly the accounts that pointed at it |
| Crud.GetAccount | crud.py:36-37 | the stored account exactly when the id is present, otherwise None; in a valid store the returned record carries the id asked for |
| Crud.CreateAccount | crud.py:39-41 | create fails exactly when the id or the account key is already used; otherwise get returns the supplied fields and nothing else changes |
| Crud.UpdateAccount | crud.py:43-48 | a missing id returns None and changes nothing; a key used by another account is refused; otherwise key, description and manager reference are overwritten and nothing else changes |
| Crud.DeleteAccount | crud.py:50-54 | returns whether the id existed, removes only that account, and a miss changes nothing |
| Crud.GetBudgetItem | crud.py:60-61 | the stored budget item exactly when the id is present, otherwise None; in a valid store the returned record carries the id asked for |
| Crud.CreateBudgetItem | crud.py:63-65 | create fails exactly when the id exists; otherwise the item has the supplied fields, no date range, and nothing else changes |
| Crud.UpdateBudgetItem | crud.py:67-72 | a missing id returns None and changes nothing; otherwise acct5, line, description and amount are overwritten, the date range is kept, and a clash on (acct5, line, datefrom) is refused |
| Crud.DeleteBudgetItem | crud.py:74-78 | returns whether the id existed, removes only that item, and a miss changes nothing |
| Crud.MaxOf | crud.py:90 | the maximum of a non-empty set is a member of the set and no member exceeds it |
| Crud.NextSeq | crud.py:88-91 | with no seq in the table the next seq is 1.0; otherwise it is exactly 5 more than the largest seq present |
| Crud.GetActualItem | crud.py:84-85 | the stored actual item exactly when the id is present, otherwise None; in a valid store the returned record carries the id asked for |
| Crud.CreateActualItem | crud.py:87-93 | a supplied seq is stored unchanged; an absent one is assigned and exceeds every existing seq; no transaction date is stored; get returns the new item and nothing else changes |
| Crud.UpdateActualItem | crud.py:95-106 | a missing id returns None and changes nothing; otherwise acct5, line, description and amount are overwritten, the transaction date is cleared, and seq is replaced only when a new one is supplied |
| Crud.DeleteActualItem | crud.py:108-112 | returns whether the id existed, removes only that item, and a miss changes nothing |
| Crud.NextLineForAccount | crud.py:115-119 | the next line is all digits, reads as one more than the account's largest line (1 for no rows) and so exceeds every line of that account; it is two characters long, or longer with no leading zero, as `f"{n:02d}"` writes it |
| CrudProofs.NextSeqExamples | crud.py:89-91 | an empty table yields seq 1.0, and a table whose largest seq is 20 yields 25 |
| CrudProofs.NextSeqSkipsAbsent | crud.py:90 | actual items without a seq have no effect on the next seq |
| CrudProofs.NextLineOfEmptyAccount | crud.py:117-119 | an account with no rows gets line "01" |
| CrudProofs.NextLineAfter99 | crud.py:118-119 | after line "99" the next line is "100"; numbering does not wrap |
| CrudProofs.NextLineIgnoresOtherAccounts | crud.py:115-119 | in the budget table and in the actual-item table alike, adding a row of another account does not change an account's next line |
| CrudProofs.NextLineIsFresh | crud.py:115-119 | for either table, the suggested line differs from every line the account already has in that table |
| CrudProofs.CreateThenGetManager | crud.py:12-17 | creating a manager under a new id succeeds, and reading that id back gives the supplied name |
| CrudProofs.DeleteAccountTwice | crud.py:50-54 | a second delete of the same id returns False and leaves the store as the first left it |
| CrudProofs.UpdateThenGetManager | crud.py:19-24 | in a valid store, reading a manager back after an update gives the same id with the new name |
| Auth.DecryptKey | auth/auth.py:11-17 | a missing or empty cookie yields ""; a non-empty one yields its decoded value |
| Auth.NewAuth | auth/auth.py:5-9 | the helper keeps the request's cookies; the user name and user id are "" when their cookie (user, uid) is missing or empty, and the decoded cookie value otherwise |
| Auth.IsAuthenticated | auth/auth.py:19-24 | authenticated exactly when the session cookie is present and non-empty |
| Auth.HasRole | auth/auth.py:26-38 | the shared check behind `Auth.IsAdmin` (`is_admin`, flag isAdmin) and `Auth.IsManager` (`is_manager`, flag isMgr): it holds exactly when the user is authenticated and the flag cookie is exactly "1"; never without authentication |
| Auth.GetUsername | auth/auth.py:40-42 | returns the user name decoded from the user cookie when the helper was built: "" for a missing or empty cookie, the decoded value otherwise |
| Auth.GetUserId | auth/auth.py:44-46 | returns the user id decoded from the uid cookie when the helper was built: "" for a missing or empty cookie, the decoded value otherwise |
| Auth.UsernameRoundTrip | auth/auth.py:5-17 | a user or uid cookie holding an encoding that the decoder inverts gives back the original name and id |
| Auth.NoSessionNoRole | auth/auth.py:19-38 | without a non-empty session cookie the user is neither authenticated, admin nor manager, whatever the role cookies hold |
| Auth.OnlyExactOneGrants | auth/auth.py:30-31 | any isAdmin value other than exactly "1" denies admin |
| Cookies.Split | static/js/misc.js:6 | splitting yields at least one piece, no piece contains the separator, and joining the pieces with it gives back the input |
| Cookies.TrimStartSpec | static/js/misc.js:8 | trimStart drops only leading white space and leaves none at the front |
| Cookies.TrimEndSpec | static/js/misc.js:8 | trimEnd drops only trailing white space and leaves none at the back |
| Cookies.TrimSpec | static/js/misc.js:8 | trim yields a contiguous middle part of the entry with only white space removed around it and none left at either end |
| Cookies.NameMatchesIsPrefix | static/js/misc.js:10 | the substring comparison holds exactly when "name=" is a prefix of the entry |
| Cookies.UserDoesNotMatchUsername | static/js/misc.js:10 | the name "user" does not match the entry "username=x" but does match "user=x" |
| Cookies.FirstValueSpec | static/js/misc.js:6-13 | the reference lookup finds nothing exactly when no trimmed entry matches, and otherwise returns the rest of the first matching entry |
| Cookies.GetCookie | static/js/misc.js:3-17 | an empty cookie string yields null; otherwise the result is the decoded value of the first matching entry, or null when none matches |
| Cookies.IsAdmin | static/js/misc.js:19-21 | true exactly when the first isAdmin cookie decodes to "1" |
| Cookies.IsManager | static/js/misc.js:23-25 | true exactly when the first isMgr cookie decodes to "1" |
| Cookies.HasFlag | static/js/misc.js:19-25 | `isAdmin()` (cookie isAdmin) and `isManager()` (cookie isMgr) are true exactly when the first matching cookie decodes to "1" |
| Cookies.RemoveQuotes | static/js/misc.js:31 | the result contains no double quote, is no longer than the input, and equals the input when it had none |
| Cookies.RemoveQuotesOne | static/js/misc.js:31 | a single double quote is removed and any other single character is kept |
| Cookies.RemoveQuotesAppend | static/js/misc.js:31 | quote removal distributes over concatenation, so with the single-character case it removes exactly the quotes and keeps every other character in order |
| Cookies.GetUsername | static/js/misc.js:27-35 | no user cookie yields null, an empty one yields ""; otherwise the value has its quotes removed and is then passed through atob |

## Findings

| source | as written | input that shows it | evidently intended | confidence | as-written member | corrected member |
|---|---|---|---|---|---|---|
| main.py:293 | the actual-item edit page assigns `joined[k]["actual"] = a.amount`, so each actual item of a key replaces the previous amount | two actual items on key ("52100", "01") with amounts 100 and 50: the edit page shows actual 50 and variance -50, the home page 150 and -150 | the same accumulation as the home page (`+=`, main.py:60); the edit page's comment at main.py:275 says it reuses the home logic | high (not executed) | ReconcileProofs.OverwriteDropsEarlierAmounts | ReconcileProofs.AccumulateSumsActuals |

`Reconcile.Join` with `Overwrite` models the edit page as written. The rest of
the model uses `Accumulate`.

## Left out

- HTTP routing, redirects, Jinja templates, the XLSX export and the CSV import
  route are left out. They are request handling around the modelled
  operations.
- The list operations (`list_managers` and the others) are left out. A
  listing is a sequence of records in whatever order the database returns
  them, since `list_budget` and `list_actuals` have no ORDER BY (crud.py:58,
  82). `Reconcile.HomeView` takes such sequences as input. The order of the
  rows does not depend on the listing order (`Ordering.SortedOrderUnique`).
  For a key held by several items, a row's contents do: the last budget
  item's amount and description, the last actual item's description and, on
  the actual-item edit page, the actual amount. The database does not fix
  that order, and `ReconcileProofs.ListingOrderDecidesRow` exhibits two
  listings of the same items with different budget amounts.
- The SQLAlchemy session, engine, commit and refresh are left out. A commit is
  the step from one `Store` value to the next. A refused commit returns
  `IntegrityError` and leaves the store unchanged.
- `Crud.CreateAccount`: when both the id and the key are taken, the model
  reports the primary-key violation. Which constraint SQLite reports first is
  not modelled.
- `Lines.LineValue`: SQLite's `CAST(line AS REAL)` is modelled only for lines
  that start with ASCII digits. Signs, decimal points, exponents and leading
  spaces are not modelled. Lines written through `pad2` are always two digits.
- `Lines.KeepDigits`: Python's `str.isdigit` also accepts non-ASCII digits.
  The model accepts only `'0'`..`'9'`.
- Floating point is not modelled. Amounts and `seq` are exact reals, so the
  rounding of `+=` at main.py:60 and of `max + 5` is left out.
- `Auth.DecryptKey`, `Cookies.GetCookie` and `Cookies.GetUsername`: the base64
  decoder, `decodeURIComponent` and `atob` are total function parameters. The
  exceptions they can raise on malformed input are not modelled.
- Starlette's parsing of the `Cookie` header into `request.cookies` is not
  modelled. `Auth` starts from the parsed map.
- The DOM, `fetch`, `localStorage` and the page-load handler of misc.js are
  left out. They are browser plumbing.
- The middleware in utils/middleware.py is left out. It is request plumbing.
  It reads `auth_instance.is_admin` without calling it.
- The column defaults `amount = 0.0` (models.py:27, 40) are left out. The
  input shapes always supply `amount`, so the defaults never apply.

=== FILE: auth.dfy ===
/** The server-side `Auth` helper of auth/auth.py, built from a request's
    parsed cookies. `base64.b64decode(...).decode('ascii')` is not modelled;
    it is passed in as the function `b64decode`. */
module Auth {
  import opened Wrappers

  /** `request.cookies`: cookie name to value. */
  type CookieMap = map<string, string>

  /** `request.cookies.get(key)`. */
  function CookieGet(cookies: CookieMap, key: string): Option<string> {
    if key in cookies then Some(cookies[key]) else None
  }

  /** The state `Auth.__init__` leaves: the cookies, plus the user name and
      user id decoded once at construction. */
  datatype Auth = Auth(cookies: CookieMap, username: string, userId: string)

  /** `decrypt_key`: the decoded cookie value, or "" when the cookie is
      missing or empty (both are falsy in Python). */
  function DecryptKey(cookies: CookieMap, key: string, b64decode: string -> string): (r: string)
    ensures CookieGet(cookies, key) == None ==> r == ""
    ensures CookieGet(cookies, key) == Some("") ==> r == ""
    ensures forall v :: CookieGet(cookies, key) == Some(v) && v != "" ==> r == b64decode(v)
  {
    var keyval := CookieGet(cookies, key);
    if keyval.Some? && keyval.value != "" then b64decode(keyval.value) else ""
  }

  /** `Auth(request)`. */
  function NewAuth(cookies: CookieMap, b64decode: string -> string): (a: Auth)
    ensures a.cookies == cookies
    ensures ("user" !in cookies || cookies["user"] == "") ==> a.username == ""
    ensures "user" in cookies && cookies["user"] != "" ==> a.username == b64decode(cookies["user"])
    ensures ("uid" !in cookies || cookies["uid"] == "") ==> a.userId == ""
    ensures "uid" in cookies && cookies["uid"] != "" ==> a.userId == b64decode(cookies["uid"])
  {
    Auth(cookies, DecryptKey(cookies, "user", b64decode), DecryptKey(cookies, "uid", b64decode))
  }

  /** `is_authenticated`: a `session` cookie is present and non-empty. */
  function IsAuthenticated(a: Auth): (r: bool)
    ensures r <==> "session" in a.cookies && a.cookies["session"] != ""
  {
    var token := CookieGet(a.cookies, "session");
    token.Some? && token.value != ""
  }

  /** The shared shape of `is_admin` and `is_manager`: authenticated, and the
      role cookie `flag` is exactly "1". */
  function HasRole(a: Auth, flag: string): (r: bool)
    ensures r ==> IsAuthenticated(a)
    ensures r <==> IsAuthenticated(a) && flag in a.cookies && a.cookies[flag] == "1"
  {
    if !IsAuthenticated(a) then false else CookieGet(a.cookies, flag) == Some("1")
  }

  /** `is_admin`: the role cookie is `isAdmin`. */
  function IsAdmin(a: Auth): bool {
    HasRole(a, "isAdmin")
  }

  /** `is_manager`: the role cookie is `isMgr`. */
  function IsManager(a: Auth): bool {
    HasRole(a, "isMgr")
  }

  /** `get_username`: the name decoded from the `user` cookie when the helper
      was built. */
  function GetUsername(a: Auth): (r: string)
    ensures forall c: CookieMap, dec: string -> string :: a == NewAuth(c, dec) ==> r == DecryptKey(c, "user", dec)
  {
    a.username
  }

  /** `get_user_id`: the id decoded from the `uid` cookie when the helper was
      built. */
  function GetUserId(a: Auth): (r: string)
    ensures forall c: CookieMap, dec: string -> string :: a == NewAuth(c, dec) ==> r == DecryptKey(c, "uid", dec)
  {
    a.userId
  }

  /** With an encoder the decoder inverts, a `user` cookie holding the encoded
      name yields that name, and a `uid` cookie the encoded id. */
  lemma UsernameRoundTrip(cookies: CookieMap, name: string, uid: string,
                          b64encode: string -> string, b64decode: string -> string)
    requires forall s :: b64decode(b64encode(s)) == s
    requires b64encode(name) != "" && b64encode(uid) != ""
    ensures var a := NewAuth(cookies["user" := b64encode(name)]["uid" := b64encode(uid)], b64decode);
      GetUsername(a) == name && GetUserId(a) == uid
  {
  }

  /** Without a session every role is denied, whatever the role cookies say. */
  lemma NoSessionNoRole(cookies: CookieMap, b64decode: string -> string)
    requires "session" !in cookies || cookies["session"] == ""
    ensures var a := NewAuth(cookies, b64decode);
      !IsAuthenticated(a) && !IsAdmin(a) && !IsManager(a)
  {
  }

  /** Role flags other than the exact string "1" ("true", "01", "") do not
      grant the role. */
  lemma OnlyExactOneGrants(a: Auth, flag: string)
    requires "isAdmin" in a.cookies && a.cookies["isAdmin"] == flag && flag != "1"
    ensures !IsAdmin(a)
  {
  }
}

=== FILE: cookies.dfy ===
/** The browser-side cookie helpers of static/js/misc.js: `getCookie` scans
    `document.cookie` (here the parameter `cookie`) for the first entry named
    `name`, and `isAdmin`, `isManager` and `getUsername` read particular
    cookies through it. `decodeURIComponent` and `atob` are not modelled; they
    are passed in as functions. */
module Cookies {
  import opened Wrappers

  // ---------------------------------------------------------------------
  // String helpers with JavaScript semantics
  // ---------------------------------------------------------------------

  /** `s.split(sep)` for a one-character separator: the pieces between
      separators, including empty ones at either end. */
  function Split(s: string, sep: char): (parts: seq<string>)
    ensures |parts| >= 1
    ensures forall i :: 0 <= i < |parts| ==> sep !in parts[i]
    ensures JoinWith(parts, sep) == s
    decreases |s|
  {
    if |s| == 0 then [""]
    else if s[0] == sep then
      var rest := Split(s[1..], sep);
      assert s == [sep] + s[1..];
      [""] + rest
    else
      var rest := Split(s[1..], sep);
      var parts := [[s[0]] + rest[0]] + rest[1..];
      assert parts[1..] == rest[1..];
      assert s == [s[0]] + s[1..];
      parts
  }

  /** `parts.join(sep)`. */
  function JoinWith(parts: seq<string>, sep: char): string
    requires |parts| >= 1
    decreases |parts|
  {
    if |parts| == 1 then parts[0] else parts[0] + [sep] + JoinWith(parts[1..], sep)
  }

  /** The characters `String.prototype.trim` removes: ECMAScript WhiteSpace
      and LineTerminator code points. */
  predicate IsSpace(c: char) {
    var n := c as int;
    n == 0x09 || n == 0x0A || n == 0x0B || n == 0x0C || n == 0x0D || n == 0x20 || n == 0xA0
    || n == 0x1680 || (0x2000 <= n <= 0x200A) || n == 0x2028 || n == 0x2029 || n == 0x202F
    || n == 0x205F || n == 0x3000 || n == 0xFEFF
  }

  predicate AllSpace(s: string) {
    forall i :: 0 <= i < |s| ==> IsSpace(s[i])
  }

  /** `s.trimStart()`. */
  function TrimStart(s: string): string
    decreases |s|
  {
    if |s| > 0 && IsSpace(s[0]) then TrimStart(s[1..]) else s
  }

  /** `s.trimEnd()`. */
  function TrimEnd(s: string): string
    decreases |s|
  {
    if |s| > 0 && IsSpace(s[|s| - 1]) then TrimEnd(s[..|s| - 1]) else s
  }

  lemma {:induction false} TrimStartSpec(s: string)
    ensures var t := TrimStart(s);
      |t| <= |s| && t == s[|s| - |t|..] && AllSpace(s[..|s| - |t|]) && (|t| > 0 ==> !IsSpace(t[0]))
    decreases |s|
  {
    if |s| > 0 && IsSpace(s[0]) {
      TrimStartSpec(s[1..]);
      var t := TrimStart(s);
      assert s[1..][|s| - 1 - |t|..] == s[|s| - |t|..];
      assert forall i :: 1 <= i < |s| - |t| ==> s[i] == s[1..][i - 1];
    }
  }

  lemma {:induction false} TrimEndSpec(s: string)
    ensures var t := TrimEnd(s);
      |t| <= |s| && t == s[..|t|] && AllSpace(s[|t|..]) && (|t| > 0 ==> !IsSpace(t[|t| - 1]))
    decreases |s|
  {
    if |s| > 0 && IsSpace(s[|s| - 1]) {
      TrimEndSpec(s[..|s| - 1]);
      var t := TrimEnd(s);
      assert s[..|s| - 1][..|t|] == s[..|t|];
      assert forall i :: |t| <= i < |s| - 1 ==> s[i] == s[..|s| - 1][i];
    }
  }

  /** `s.trim()`: the string with white space removed from both ends. */
  function Trim(s: string): string {
    TrimEnd(TrimStart(s))
  }

  /** Trimming keeps a contiguous middle part of the string, drops only white
      space around it, and leaves no white space at either end. */
  lemma TrimSpec(s: string)
    ensures var t := Trim(s);
      exists i, j :: 0 <= i <= j <= |s| && t == s[i..j] && AllSpace(s[..i]) && AllSpace(s[j..])
    ensures var t := Trim(s);
      |t| > 0 ==> !IsSpace(t[0]) && !IsSpace(t[|t| - 1])
  {
    var a := TrimStart(s);
    var t := TrimEnd(a);
    TrimStartSpec(s);
    TrimEndSpec(a);
    var i := |s| - |a|;
    assert t == s[i..i + |t|];
    assert s[i + |t|..] == a[|t|..];
  }

  /** `s.substring(start, end)` with both bounds already in order; an end
      past the string is clamped to its length. */
  function Substring(s: string, start: nat, end: nat): string
    requires start <= end
  {
    if start >= |s| then "" else if end >= |s| then s[start..] else s[start..end]
  }

  /** The test of misc.js line 10: the first `name.length + 1` characters of
      the entry are `name=`. */
  predicate NameMatches(entry: string, name: string) {
    Substring(entry, 0, |name| + 1) == name + "="
  }

  /** The test holds exactly when `name=` is a prefix of the entry, so a
      cookie whose name merely starts with `name` does not match. */
  lemma NameMatchesIsPrefix(entry: string, name: string)
    ensures NameMatches(entry, name) <==> name + "=" <= entry
  {
  }

  lemma UserDoesNotMatchUsername()
    ensures !NameMatches("username=x", "user")
    ensures NameMatches("user=x", "user")
  {
    NameMatchesIsPrefix("username=x", "user");
    NameMatchesIsPrefix("user=x", "user");
    assert "username=x"[4] == 'n';
  }

  // ---------------------------------------------------------------------
  // getCookie
  // ---------------------------------------------------------------------

  /** The entries `getCookie` scans, trimmed. */
  function Entries(cookie: string): seq<string> {
    Split(cookie, ';')
  }

  /** Entry `i` is the first one named `name`. */
  ghost predicate FirstMatchAt(entries: seq<string>, name: string, i: int) {
    && 0 <= i < |entries|
    && NameMatches(Trim(entries[i]), name)
    && forall j :: 0 <= j < i ==> !NameMatches(Trim(entries[j]), name)
  }

  /** The raw value of the first entry named `name` among `entries`: the
      reference `getCookie` is checked against. */
  function FirstValue(entries: seq<string>, name: string): Option<string>
    decreases |entries|
  {
    if |entries| == 0 then None
    else
      var e := Trim(entries[0]);
      if NameMatches(e, name) then Some(e[|name| + 1..]) else FirstValue(entries[1..], name)
  }

  /** `FirstValue` finds the value of the first matching entry, and nothing
      when no entry matches. */
  lemma {:induction false} FirstValueSpec(entries: seq<string>, name: string)
    ensures var v := FirstValue(entries, name);
      v.None? <==> forall i :: 0 <= i < |entries| ==> !NameMatches(Trim(entries[i]), name)
    ensures var v := FirstValue(entries, name);
      v.Some? ==> exists i :: FirstMatchAt(entries, name, i) && v.value == Trim(entries[i])[|name| + 1..]
    decreases |entries|
  {
    if |entries| > 0 {
      var e := Trim(entries[0]);
      if NameMatches(e, name) {
        assert FirstMatchAt(entries, name, 0);
      } else {
        FirstValueSpec(entries[1..], name);
        var v := FirstValue(entries[1..], name);
        assert forall i :: 1 <= i < |entries| ==> entries[i] == entries[1..][i - 1];
        if v.Some? {
          var i :| FirstMatchAt(entries[1..], name, i) && v.value == Trim(entries[1..][i])[|name| + 1..];
          assert FirstMatchAt(entries, name, i + 1);
        }
      }
    }
  }

  /** `getCookie(name)` over the cookie string `cookie`: `null` for an empty
      cookie string, otherwise the decoded value of the first entry named
      `name`, or `null` when none is. */
  method GetCookie(cookie: string, name: string, decode: string -> string) returns (value: Option<string>)
    ensures cookie == "" ==> value == None
    ensures cookie != "" ==> match FirstValue(Entries(cookie), name)
      case None => value == None
      case Some(raw) => value == Some(decode(raw))
  {
    value := None;
    if cookie != "" {
      var cookies := Split(cookie, ';');
      var i := 0;
      while i < |cookies|
        invariant 0 <= i <= |cookies|
        invariant value == None
        invariant FirstValue(cookies, name) == FirstValue(cookies[i..], name)
      {
        var entry := Trim(cookies[i]);
        if Substring(entry, 0, |name| + 1) == name + "=" {
          value := Some(decode(Substring(entry, |name| + 1, |entry|)));
          assert cookies[i..][0] == cookies[i];
          break;
        }
        assert cookies[i..][1..] == cookies[i + 1..];
        i := i + 1;
      }
    }
  }

  /** The shared shape of `isAdmin()` and `isManager()`: the decoded cookie
      `name` is exactly "1". */
  method HasFlag(cookie: string, name: string, decode: string -> string) returns (r: bool)
    ensures r <==> cookie != "" && FirstValue(Entries(cookie), name).Some?
                   && decode(FirstValue(Entries(cookie), name).value) == "1"
  {
    var v := GetCookie(cookie, name, decode);
    r := v == Some("1");
  }

  /** `isAdmin()`: the flag cookie is `isAdmin`. */
  method IsAdmin(cookie: string, decode: string -> string) returns (r: bool)
    ensures r <==> cookie != "" && FirstValue(Entries(cookie), "isAdmin").Some?
                   && decode(FirstValue(Entries(cookie), "isAdmin").value) == "1"
  {
    r := HasFlag(cookie, "isAdmin", decode);
  }

  /** `isManager()`: the flag cookie is `isMgr`. */
  method IsManager(cookie: string, decode: string -> string) returns (r: bool)
    ensures r <==> cookie != "" && FirstValue(Entries(cookie), "isMgr").Some?
                   && decode(FirstValue(Entries(cookie), "isMgr").value) == "1"
  {
    r := HasFlag(cookie, "isMgr", decode);
  }

  /** `user.replace(/"/g, '')`. */
  function RemoveQuotes(s: string): (r: string)
    ensures '"' !in r
    ensures |r| <= |s|
    ensures '"' !in s ==> r == s
    decreases |s|
  {
    if |s| == 0 then ""
    else if s[0] == '"' then RemoveQuotes(s[1..])
    else [s[0]] + RemoveQuotes(s[1..])
  }

  /** On a single character, a double quote is removed and anything else is
      kept. */
  lemma {:induction false} RemoveQuotesOne(c: char)
    ensures RemoveQuotes([c]) == if c == '"' then "" else [c]
  {
    assert [c][1..] == "";
  }

  /** Quote removal distributes over concatenation; with `RemoveQuotesOne`
      this says every other character is kept, in order. */
  lemma {:induction false} RemoveQuotesAppend(a: string, b: string)
    ensures RemoveQuotes(a + b) == RemoveQuotes(a) + RemoveQuotes(b)
    decreases |a|
  {
    if |a| > 0 {
      assert (a + b)[1..] == a[1..] + b;
      RemoveQuotesAppend(a[1..], b);
    } else {
      assert a + b == b;
    }
  }

  /** `getUsername()`: `null` without a `user` cookie, the empty string for an
      empty one, and otherwise the value with its quotes removed and passed
      through `atob`. */
  method GetUsername(cookie: string, decode: string -> string, atob: string -> string) returns (user: Option<string>)
    ensures var v := if cookie == "" then None else FirstValue(Entries(cookie), "user");
      match v
      case None => user == None
      case Some(raw) =>
        var u := decode(raw);
        user == if u == "" then Some("") else Some(atob(RemoveQuotes(u)))
  {
    user := GetCookie(cookie, "user", decode);
    if user.Some? && user.value != "" {
      user := Some(atob(RemoveQuotes(user.value)));
    }
  }
}

=== FILE: crud.dfy ===
/** The record store of crud.py: four tables keyed by id, and per table the
    create, get, update and delete operations, each a transition from one
    store to the next. A commit that a table constraint refuses raises an
    integrity error and leaves the store as it was. */
module Crud {
  import opened Wrappers
  import opened Models
  import opened Schemas
  import opened Decimal
  import opened Lines

  datatype Store = Store(
    managers: map<Id, Manager>,
    accounts: map<Id, Account>,
    budget: map<Id, BudgetItem>,
    actuals: map<Id, ActualItem>)

  /** The table constraint a refused commit violated. */
  datatype Constraint = PrimaryKey | AccountKeyUnique | BudgetSlotUnique

  datatype StoreError = IntegrityError(violated: Constraint)

  /** The store after a committed call, with the value the call returned. */
  datatype Committed<T> = Committed(store: Store, value: T)

  // ---------------------------------------------------------------------
  // Store invariant
  // ---------------------------------------------------------------------

  ghost predicate IdsMatch(s: Store) {
    && (forall id :: id in s.managers ==> s.managers[id].id == id)
    && (forall id :: id in s.accounts ==> s.accounts[id].id == id)
    && (forall id :: id in s.budget ==> s.budget[id].id == id)
    && (forall id :: id in s.actuals ==> s.actuals[id].id == id)
  }

  /** `Account.key` is unique. */
  ghost predicate AccountKeysUnique(accounts: map<Id, Account>) {
    forall i, j :: i in accounts && j in accounts && accounts[i].key == accounts[j].key ==> i == j
  }

  /** The unique constraint on (acct5, line, datefrom). SQL treats an absent
      `datefrom` as distinct from every other, so only rows that carry a
      `datefrom` can clash. */
  ghost predicate BudgetSlotsUnique(budget: map<Id, BudgetItem>) {
    forall i, j :: i in budget && j in budget && i != j && budget[i].datefrom.Some? ==>
      (budget[i].acct5, budget[i].line, budget[i].datefrom) != (budget[j].acct5, budget[j].line, budget[j].datefrom)
  }

  /** What the database guarantees of every committed state. */
  ghost predicate Valid(s: Store) {
    IdsMatch(s) && AccountKeysUnique(s.accounts) && BudgetSlotsUnique(s.budget)
  }

  /** Some account other than `except` already uses `key`. */
  predicate KeyTaken(accounts: map<Id, Account>, key: string, except: Option<Id>) {
    exists i :: i in accounts && Some(i) != except && accounts[i].key == key
  }

  /** Some budget item other than `except` already holds the slot. */
  predicate SlotTaken(budget: map<Id, BudgetItem>, acct5: string, line: string, datefrom: Option<string>, except: Id) {
    datefrom.Some? &&
    exists i :: i in budget && i != except && budget[i].acct5 == acct5 && budget[i].line == line && budget[i].datefrom == datefrom
  }

  // ---------------------------------------------------------------------
  // Managers
  // ---------------------------------------------------------------------

  /** `get_manager` (`db.get` by primary key): the stored record, or None when no
      record has that id; in a valid store the record carries the id asked for. */
  function GetManager(s: Store, id: Id): (r: Option<Manager>)
    ensures r.Some? <==> id in s.managers
    ensures r.Some? ==> r.value == s.managers[id]
    ensures Valid(s) && r.Some? ==> r.value.id == id
  {
    if id in s.managers then Some(s.managers[id]) else None
  }

  function CreateManager(s: Store, m: ManagerCreate): (r: Result<Committed<Manager>, StoreError>)
    ensures r.Err? <==> m.id in s.managers
    ensures r.Err? ==> r.error == IntegrityError(PrimaryKey)
    ensures r.Ok? ==> r.value.value == Manager(m.id, m.name)
    ensures r.Ok? ==> GetManager(r.value.store, m.id) == Some(r.value.value)
    ensures r.Ok? ==> forall id :: id != m.id ==> GetManager(r.value.store, id) == GetManager(s, id)
    ensures r.Ok? ==> r.value.store.(managers := s.managers) == s
    ensures r.Ok? && Valid(s) ==> Valid(r.value.store)
  {
    if m.id in s.managers then Err(IntegrityError(PrimaryKey))
    else
      var obj := Manager(m.id, m.name);
      Ok(Committed(s.(managers := s.managers[m.id := obj]), obj))
  }

  /** Only the name changes. */
  function UpdateManager(s: Store, id: Id, m: ManagerBase): (r: Committed<Option<Manager>>)
    ensures id !in s.managers ==> r.value.None? && r.store == s
    ensures Valid(s) && id in s.managers ==> r.value == Some(Manager(id, m.name))
    ensures id in s.managers ==> r.value.Some? && r.value.value.name == m.name && r.value.value.id == s.managers[id].id
    ensures id in s.managers ==> GetManager(r.store, id) == r.value
    ensures forall other :: other != id ==> GetManager(r.store, other) == GetManager(s, other)
    ensures r.store.(managers := s.managers) == s
    ensures Valid(s) ==> Valid(r.store)
  {
    match GetManager(s, id)
    case None => Committed(s, None)
    case Some(obj) =>
      var obj' := obj.(name := m.name);
      Committed(s.(managers := s.managers[id := obj']), Some(obj'))
  }

  /** Deleting a manager also clears the manager reference of its accounts:
      the `Manager.accounts` relationship has no delete cascade, so the ORM
      sets the children's foreign key to NULL. */
  function DeleteManager(s: Store, id: Id): (r: Committed<bool>)
    ensures r.value <==> id in s.managers
    ensures !r.value ==> r.store == s
    ensures r.value ==> r.store.managers.Keys == s.managers.Keys - {id}
    ensures forall other :: other != id ==> GetManager(r.store, other) == GetManager(s, other)
    ensures r.value ==> r.store.accounts.Keys == s.accounts.Keys
    ensures r.value ==> forall a :: a in s.accounts ==>
      r.store.accounts[a] == if s.accounts[a].managerId == Some(id) then s.accounts[a].(managerId := None) else s.accounts[a]
    ensures r.store.budget == s.budget && r.store.actuals == s.actuals
    ensures Valid(s) ==> Valid(r.store)
  {
    if id !in s.managers then Committed(s, false)
    else
      var accounts' := map a | a in s.accounts ::
        if s.accounts[a].managerId == Some(id) then s.accounts[a].(managerId := None) else s.accounts[a];
      Committed(s.(managers := s.managers - {id}, accounts := accounts'), true)
  }

  // ---------------------------------------------------------------------
  // Accounts
  // ---------------------------------------------------------------------

  /** `get_account` (`db.get` by primary key): the stored record, or None when no
      record has that id; in a valid store the record carries the id asked for. */
  function GetAccount(s: Store, id: Id): (r: Option<Account>)
    ensures r.Some? <==> id in s.accounts
    ensures r.Some? ==> r.value == s.accounts[id]
    ensures Valid(s) && r.Some? ==> r.value.id == id
  {
    if id in s.accounts then Some(s.accounts[id]) else None
  }

  /** The manager reference is stored as given: SQLite does not enforce the
      foreign key. */
  function CreateAccount(s: Store, a: AccountCreate): (r: Result<Committed<Account>, StoreError>)
    ensures r.Err? <==> a.id in s.accounts || KeyTaken(s.accounts, a.key, None)
    ensures r.Err? && a.id !in s.accounts ==> r.error == IntegrityError(AccountKeyUnique)
    ensures r.Ok? ==> r.value.value == Account(a.id, a.key, a.description, a.managerId)
    ensures r.Ok? ==> GetAccount(r.value.store, a.id) == Some(r.value.value)
    ensures r.Ok? ==> forall id :: id != a.id ==> GetAccount(r.value.store, id) == GetAccount(s, id)
    ensures r.Ok? ==> r.value.store.(accounts := s.accounts) == s
    ensures r.Ok? && Valid(s) ==> Valid(r.value.store)
  {
    if a.id in s.accounts then Err(IntegrityError(PrimaryKey))
    else if KeyTaken(s.accounts, a.key, None) then Err(IntegrityError(AccountKeyUnique))
    else
      var obj := Account(a.id, a.key, a.description, a.managerId);
      Ok(Committed(s.(accounts := s.accounts[a.id := obj]), obj))
  }

  /** Overwrites exactly `key`, `description` and the manager reference. */
  function UpdateAccount(s: Store, id: Id, a: AccountBase): (r: Result<Committed<Option<Account>>, StoreError>)
    ensures id !in s.accounts ==> r == Ok(Committed(s, None))
    ensures r.Err? <==> id in s.accounts && KeyTaken(s.accounts, a.key, Some(id))
    ensures r.Err? ==> r.error == IntegrityError(AccountKeyUnique)
    ensures r.Ok? && id in s.accounts ==>
      r.value.value == Some(Account(s.accounts[id].id, a.key, a.description, a.managerId))
    ensures r.Ok? ==> GetAccount(r.value.store, id) == (if id in s.accounts then r.value.value else None)
    ensures r.Ok? ==> forall other :: other != id ==> GetAccount(r.value.store, other) == GetAccount(s, other)
    ensures r.Ok? ==> r.value.store.(accounts := s.accounts) == s
    ensures r.Ok? && Valid(s) ==> Valid(r.value.store)
  {
    match GetAccount(s, id)
    case None => Ok(Committed(s, None))
    case Some(obj) =>
      if KeyTaken(s.accounts, a.key, Some(id)) then Err(IntegrityError(AccountKeyUnique))
      else
        var obj' := obj.(key := a.key, description := a.description, managerId := a.managerId);
        Ok(Committed(s.(accounts := s.accounts[id := obj']), Some(obj')))
  }

  function DeleteAccount(s: Store, id: Id): (r: Committed<bool>)
    ensures r.value <==> id in s.accounts
    ensures !r.value ==> r.store == s
    ensures r.store.accounts.Keys == s.accounts.Keys - {id}
    ensures forall other :: other != id ==> GetAccount(r.store, other) == GetAccount(s, other)
    ensures r.store.(accounts := s.accounts) == s
    ensures Valid(s) ==> Valid(r.store)
  {
    if id !in s.accounts then Committed(s, false)
    else Committed(s.(accounts := s.accounts - {id}), true)
  }

  // ---------------------------------------------------------------------
  // Budget items
  // ---------------------------------------------------------------------

  /** `get_budget_item` (`db.get` by primary key): the stored record, or None when no
      record has that id; in a valid store the record carries the id asked for. */
  function GetBudgetItem(s: Store, id: Id): (r: Option<BudgetItem>)
    ensures r.Some? <==> id in s.budget
    ensures r.Some? ==> r.value == s.budget[id]
    ensures Valid(s) && r.Some? ==> r.value.id == id
  {
    if id in s.budget then Some(s.budget[id]) else None
  }

  /** A new budget item has no date range, and its `seq` is not stored. */
  function CreateBudgetItem(s: Store, it: LineItemCreate): (r: Result<Committed<BudgetItem>, StoreError>)
    ensures r.Err? <==> it.id in s.budget
    ensures r.Err? ==> r.error == IntegrityError(PrimaryKey)
    ensures r.Ok? ==> r.value.value == BudgetItem(it.id, it.acct5, it.line, it.description, it.amount, None, None)
    ensures r.Ok? ==> GetBudgetItem(r.value.store, it.id) == Some(r.value.value)
    ensures r.Ok? ==> forall id :: id != it.id ==> GetBudgetItem(r.value.store, id) == GetBudgetItem(s, id)
    ensures r.Ok? ==> r.value.store.(budget := s.budget) == s
    ensures r.Ok? && Valid(s) ==> Valid(r.value.store)
  {
    if it.id in s.budget then Err(IntegrityError(PrimaryKey))
    else
      var obj := BudgetItem(it.id, it.acct5, it.line, it.description, it.amount, None, None);
      Ok(Committed(s.(budget := s.budget[it.id := obj]), obj))
  }

  /** Overwrites `acct5`, `line`, `description` and `amount`; the date range
      and the id are untouched. */
  function UpdateBudgetItem(s: Store, id: Id, it: LineItemBase): (r: Result<Committed<Option<BudgetItem>>, StoreError>)
    ensures id !in s.budget ==> r == Ok(Committed(s, None))
    ensures r.Err? <==> id in s.budget && SlotTaken(s.budget, it.acct5, it.line, s.budget[id].datefrom, id)
    ensures r.Err? ==> r.error == IntegrityError(BudgetSlotUnique)
    ensures r.Ok? && id in s.budget ==>
      var old_ := s.budget[id];
      r.value.value == Some(BudgetItem(old_.id, it.acct5, it.line, it.description, it.amount, old_.datefrom, old_.dateto))
    ensures r.Ok? ==> GetBudgetItem(r.value.store, id) == (if id in s.budget then r.value.value else None)
    ensures r.Ok? ==> forall other :: other != id ==> GetBudgetItem(r.value.store, other) == GetBudgetItem(s, other)
    ensures r.Ok? ==> r.value.store.(budget := s.budget) == s
    ensures r.Ok? && Valid(s) ==> Valid(r.value.store)
  {
    match GetBudgetItem(s, id)
    case None => Ok(Committed(s, None))
    case Some(obj) =>
      if SlotTaken(s.budget, it.acct5, it.line, obj.datefrom, id) then Err(IntegrityError(BudgetSlotUnique))
      else
        var obj' := obj.(acct5 := it.acct5, line := it.line, description := it.description, amount := it.amount);
        Ok(Committed(s.(budget := s.budget[id := obj']), Some(obj')))
  }

  function DeleteBudgetItem(s: Store, id: Id): (r: Committed<bool>)
    ensures r.value <==> id in s.budget
    ensures !r.value ==> r.store == s
    ensures r.store.budget.Keys == s.budget.Keys - {id}
    ensures forall other :: other != id ==> GetBudgetItem(r.store, other) == GetBudgetItem(s, other)
    ensures r.store.(budget := s.budget) == s
    ensures Valid(s) ==> Valid(r.store)
  {
    if id !in s.budget then Committed(s, false)
    else Committed(s.(budget := s.budget - {id}), true)
  }

  // ---------------------------------------------------------------------
  // Actual items
  // ---------------------------------------------------------------------

  /** `get_actual_item` (`db.get` by primary key): the stored record, or None when no
      record has that id; in a valid store the record carries the id asked for. */
  function GetActualItem(s: Store, id: Id): (r: Option<ActualItem>)
    ensures r.Some? <==> id in s.actuals
    ensures r.Some? ==> r.value == s.actuals[id]
    ensures Valid(s) && r.Some? ==> r.value.id == id
  {
    if id in s.actuals then Some(s.actuals[id]) else None
  }

  /** The `seq` values present in the actual-item table (SQL `MAX` skips
      NULLs). */
  function SeqValues(actuals: map<Id, ActualItem>): set<real> {
    set id | id in actuals && actuals[id].seqNo.Some? :: actuals[id].seqNo.value
  }

  lemma {:induction false} MaxExists(s: set<real>)
    requires s != {}
    ensures exists m :: m in s && forall x :: x in s ==> x <= m
    decreases |s|
  {
    var y := PickOne(s);
    var rest := s - {y};
    if rest != {} {
      MaxExists(rest);
      var m :| m in rest && forall x :: x in rest ==> x <= m;
      var top := if y <= m then m else y;
      forall x | x in s
        ensures x <= top
      {
        if x != y {
          assert x in rest;
        }
      }
      assert top in s;
    } else {
      forall x | x in s
        ensures x <= y
      {
        assert x !in rest;
      }
    }
  }

  lemma PickOne(s: set<real>) returns (y: real)
    requires s != {}
    ensures y in s
  {
    assert (forall x :: x !in s) ==> s == {};
    y :| y in s;
  }

  /** SQL `MAX` over a non-empty set of values. */
  function MaxOf(s: set<real>): (m: real)
    requires s != {}
    ensures m in s
    ensures forall x :: x in s ==> x <= m
  {
    MaxExists(s);
    var m :| m in s && forall x :: x in s ==> x <= m;
    m
  }

  /** The `seq` a new actual item gets when none is supplied: five past the
      largest one present, or 1.0 when no actual item has one. */
  function NextSeq(actuals: map<Id, ActualItem>): (r: real)
    ensures SeqValues(actuals) == {} ==> r == 1.0
    ensures SeqValues(actuals) != {} ==> r - 5.0 in SeqValues(actuals)
    ensures forall v :: v in SeqValues(actuals) ==> v + 5.0 <= r
  {
    var vals := SeqValues(actuals);
    if vals == {} then 1.0 else MaxOf(vals) + 5.0
  }

  /** A supplied `seq` is stored as it is; an absent one is assigned by
      `NextSeq`. No transaction date is stored, since the create shape has
      none. */
  function CreateActualItem(s: Store, it: LineItemCreate): (r: Result<Committed<ActualItem>, StoreError>)
    ensures r.Err? <==> it.id in s.actuals
    ensures r.Err? ==> r.error == IntegrityError(PrimaryKey)
    ensures r.Ok? ==> var obj := r.value.value;
      && obj.id == it.id && obj.acct5 == it.acct5 && obj.line == it.line
      && obj.description == it.description && obj.amount == it.amount
      && obj.trDate == None
      && obj.seqNo == Some(if it.seqNo.Some? then it.seqNo.value else NextSeq(s.actuals))
    ensures r.Ok? && it.seqNo.None? ==>
      forall v :: v in SeqValues(s.actuals) ==> v < r.value.value.seqNo.value
    ensures r.Ok? ==> GetActualItem(r.value.store, it.id) == Some(r.value.value)
    ensures r.Ok? ==> forall id :: id != it.id ==> GetActualItem(r.value.store, id) == GetActualItem(s, id)
    ensures r.Ok? ==> r.value.store.(actuals := s.actuals) == s
    ensures r.Ok? && Valid(s) ==> Valid(r.value.store)
  {
    if it.id in s.actuals then Err(IntegrityError(PrimaryKey))
    else
      var seqNo := if it.seqNo.None? then NextSeq(s.actuals) else it.seqNo.value;
      var obj := ActualItem(it.id, it.acct5, it.line, None, it.description, it.amount, Some(seqNo));
      Ok(Committed(s.(actuals := s.actuals[it.id := obj]), obj))
  }

  /** Overwrites `acct5`, `line`, `description` and `amount`, clears the
      transaction date (the update shape has none), and replaces `seq` only
      when a new one is supplied. */
  function UpdateActualItem(s: Store, id: Id, it: LineItemBase): (r: Committed<Option<ActualItem>>)
    ensures id !in s.actuals ==> r == Committed(s, None)
    ensures id in s.actuals ==> r.value.Some? && var obj := r.value.value;
      && obj.id == s.actuals[id].id && obj.acct5 == it.acct5 && obj.line == it.line
      && obj.description == it.description && obj.amount == it.amount
      && obj.trDate == None
      && obj.seqNo == (if it.seqNo.Some? then it.seqNo else s.actuals[id].seqNo)
    ensures GetActualItem(r.store, id) == (if id in s.actuals then r.value else None)
    ensures forall other :: other != id ==> GetActualItem(r.store, other) == GetActualItem(s, other)
    ensures r.store.(actuals := s.actuals) == s
    ensures Valid(s) ==> Valid(r.store)
  {
    match GetActualItem(s, id)
    case None => Committed(s, None)
    case Some(obj) =>
      var obj' := obj.(acct5 := it.acct5, line := it.line, description := it.description, amount := it.amount,
                       trDate := None, seqNo := if it.seqNo.Some? then it.seqNo else obj.seqNo);
      Committed(s.(actuals := s.actuals[id := obj']), Some(obj'))
  }

  function DeleteActualItem(s: Store, id: Id): (r: Committed<bool>)
    ensures r.value <==> id in s.actuals
    ensures !r.value ==> r.store == s
    ensures r.store.actuals.Keys == s.actuals.Keys - {id}
    ensures forall other :: other != id ==> GetActualItem(r.store, other) == GetActualItem(s, other)
    ensures r.store.(actuals := s.actuals) == s
    ensures Valid(s) ==> Valid(r.store)
  {
    if id !in s.actuals then Committed(s, false)
    else Committed(s.(actuals := s.actuals - {id}), true)
  }

  // ---------------------------------------------------------------------
  // Next free line of an account
  // ---------------------------------------------------------------------

  /** The table `next_line_for_account` is asked about. */
  datatype Table = BudgetTable | ActualTable

  /** `CAST(line AS REAL)` of every row of `table` whose acct5 is `acct5`. */
  function LineValues(s: Store, table: Table, acct5: string): set<real> {
    match table
    case BudgetTable => set id | id in s.budget && s.budget[id].acct5 == acct5 :: LineValue(s.budget[id].line) as real
    case ActualTable => set id | id in s.actuals && s.actuals[id].acct5 == acct5 :: LineValue(s.actuals[id].line) as real
  }

  /** `int(max_line or 0) + 1`, written with at least two digits. The result
      reads as exactly one more than the largest line of the account, so it
      exceeds every line the account has. */
  function NextLineForAccount(s: Store, table: Table, acct5: string): (r: string)
    ensures AllDigits(r) && |r| >= 2
    ensures |r| > 2 ==> r[0] != '0'
    ensures forall v :: v in LineValues(s, table, acct5) ==> v < Value(r) as real
    ensures LineValues(s, table, acct5) == {} ==> Value(r) == 1
    ensures LineValues(s, table, acct5) != {} ==> (Value(r) - 1) as real in LineValues(s, table, acct5)
  {
    var vals := LineValues(s, table, acct5);
    var maxLine := if vals == {} then 0.0 else MaxOf(vals);
    assert vals != {} ==> maxLine.Floor as real == maxLine;
    var n := maxLine.Floor + 1;
    var d := DecimalOf(n);
    var r := ZFill(d, 2);
    assert |r| > 2 ==> r == r[|r| - |d|..] == d;
    r
  }
}

module CrudProofs {
  import opened Wrappers
  import opened Models
  import opened Schemas
  import opened Decimal
  import opened Lines
  import opened Crud

  /** Sequence assignment on worked examples: an empty table starts at 1.0;
      a table whose largest `seq` is 20 continues at 25. */
  lemma NextSeqExamples(id: Id)
    ensures NextSeq(map[]) == 1.0
    ensures NextSeq(map[id := ActualItem(id, "52100", "01", None, "fuel", 12.5, Some(20.0))]) == 25.0
  {
    var m := map[id := ActualItem(id, "52100", "01", None, "fuel", 12.5, Some(20.0))];
    assert SeqValues(map[]) == {};
    assert 20.0 in SeqValues(m) by { assert id in m && m[id].seqNo == Some(20.0); }
    forall v | v in SeqValues(m)
      ensures v == 20.0
    {
    }
    assert SeqValues(m) == {20.0};
  }

  /** Actual items without a `seq` do not count towards the next one. */
  lemma NextSeqSkipsAbsent(actuals: map<Id, ActualItem>, id: Id, a: ActualItem)
    requires id !in actuals && a.seqNo.None?
    ensures NextSeq(actuals[id := a]) == NextSeq(actuals)
  {
    var m := actuals[id := a];
    forall v | v in SeqValues(m)
      ensures v in SeqValues(actuals)
    {
      var i :| i in m && m[i].seqNo.Some? && m[i].seqNo.value == v;
      assert i != id;
    }
    forall v | v in SeqValues(actuals)
      ensures v in SeqValues(m)
    {
      var i :| i in actuals && actuals[i].seqNo.Some? && actuals[i].seqNo.value == v;
      assert i in m && m[i] == actuals[i];
    }
    assert SeqValues(m) == SeqValues(actuals);
  }

  /** An account with no rows starts at line "01". */
  lemma {:induction false} NextLineOfEmptyAccount(s: Store, table: Table, acct5: string)
    requires LineValues(s, table, acct5) == {}
    ensures NextLineForAccount(s, table, acct5) == "01"
  {
    var r := NextLineForAccount(s, table, acct5);
    assert DecimalOf(1) == "1";
    assert Zeros(1) == "0";
    assert r == ZFill("1", 2);
  }

  /** Line numbers do not wrap after 99: the next line is "100". */
  lemma {:induction false} NextLineAfter99(id: Id, acct5: string)
    ensures var b := BudgetItem(id, acct5, "99", "travel", 100.0, None, None);
      var s := Store(map[], map[], map[id := b], map[]);
      NextLineForAccount(s, BudgetTable, acct5) == "100"
  {
    var b := BudgetItem(id, acct5, "99", "travel", 100.0, None, None);
    var s := Store(map[], map[], map[id := b], map[]);
    assert LineValue("99") == 99 by {
      assert AllDigits("99");
      assert "99"[..1] == "9";
      assert Value("9") == 9 by { assert "9"[..0] == ""; }
    }
    assert 99.0 in LineValues(s, BudgetTable, acct5) by { assert id in s.budget; }
    forall v | v in LineValues(s, BudgetTable, acct5)
      ensures v == 99.0
    {
    }
    assert LineValues(s, BudgetTable, acct5) == {99.0};
    assert MaxOf({99.0}) == 99.0;
    var hundred := DecimalOf(100);
    assert DecimalOf(10) == "10" by { assert DecimalOf(1) == "1"; assert DecimalOf(0) == "0"; }
    assert hundred == "100";
  }

  /** `s` with one more row under `id` in `table`: the budget item `b` for the
      budget table, the actual item `a` for the actual-item table. */
  function WithRow(s: Store, table: Table, id: Id, b: BudgetItem, a: ActualItem): Store {
    match table
    case BudgetTable => s.(budget := s.budget[id := b])
    case ActualTable => s.(actuals := s.actuals[id := a])
  }

  /** The line of row `id` in `table`. */
  function LineOf(s: Store, table: Table, id: Id): string
    requires table == BudgetTable ==> id in s.budget
    requires table == ActualTable ==> id in s.actuals
  {
    match table
    case BudgetTable => s.budget[id].line
    case ActualTable => s.actuals[id].line
  }

  /** A budget row of another account leaves the account's budget lines as
      they were. */
  lemma BudgetRowOfOtherAccount(s: Store, id: Id, b: BudgetItem, acct5: string)
    requires id !in s.budget && b.acct5 != acct5
    ensures LineValues(s.(budget := s.budget[id := b]), BudgetTable, acct5) == LineValues(s, BudgetTable, acct5)
  {
    var s' := s.(budget := s.budget[id := b]);
    forall v | v in LineValues(s', BudgetTable, acct5)
      ensures v in LineValues(s, BudgetTable, acct5)
    {
      var i :| i in s'.budget && s'.budget[i].acct5 == acct5 && LineValue(s'.budget[i].line) as real == v;
      assert i != id;
    }
    forall v | v in LineValues(s, BudgetTable, acct5)
      ensures v in LineValues(s', BudgetTable, acct5)
    {
      var i :| i in s.budget && s.budget[i].acct5 == acct5 && LineValue(s.budget[i].line) as real == v;
      assert i in s'.budget && s'.budget[i] == s.budget[i];
    }
  }

  /** An actual-item row of another account leaves the account's actual-item
      lines as they were. */
  lemma ActualRowOfOtherAccount(s: Store, id: Id, a: ActualItem, acct5: string)
    requires id !in s.actuals && a.acct5 != acct5
    ensures LineValues(s.(actuals := s.actuals[id := a]), ActualTable, acct5) == LineValues(s, ActualTable, acct5)
  {
    var s' := s.(actuals := s.actuals[id := a]);
    forall v | v in LineValues(s', ActualTable, acct5)
      ensures v in LineValues(s, ActualTable, acct5)
    {
      var i :| i in s'.actuals && s'.actuals[i].acct5 == acct5 && LineValue(s'.actuals[i].line) as real == v;
      assert i != id;
    }
    forall v | v in LineValues(s, ActualTable, acct5)
      ensures v in LineValues(s', ActualTable, acct5)
    {
      var i :| i in s.actuals && s.actuals[i].acct5 == acct5 && LineValue(s.actuals[i].line) as real == v;
      assert i in s'.actuals && s'.actuals[i] == s.actuals[i];
    }
  }

  /** Rows of other accounts have no say in an account's next line, in either
      table. */
  lemma NextLineIgnoresOtherAccounts(s: Store, table: Table, id: Id, b: BudgetItem, a: ActualItem, acct5: string)
    requires table == BudgetTable ==> id !in s.budget && b.acct5 != acct5
    requires table == ActualTable ==> id !in s.actuals && a.acct5 != acct5
    ensures NextLineForAccount(WithRow(s, table, id, b, a), table, acct5) == NextLineForAccount(s, table, acct5)
  {
    match table
    case BudgetTable => BudgetRowOfOtherAccount(s, id, b, acct5);
    case ActualTable => ActualRowOfOtherAccount(s, id, a, acct5);
  }

  /** The line suggested for either table is one the account does not use
      there yet. */
  lemma NextLineIsFresh(s: Store, table: Table, acct5: string, id: Id)
    requires table == BudgetTable ==> id in s.budget && s.budget[id].acct5 == acct5
    requires table == ActualTable ==> id in s.actuals && s.actuals[id].acct5 == acct5
    ensures LineOf(s, table, id) != NextLineForAccount(s, table, acct5)
  {
    var line := LineOf(s, table, id);
    assert LineValue(line) as real in LineValues(s, table, acct5);
  }

  /** After a create, reading the id back yields the supplied fields. */
  lemma CreateThenGetManager(s: Store, m: ManagerCreate)
    requires m.id !in s.managers
    ensures CreateManager(s, m).Ok?
    ensures var s' := CreateManager(s, m).value.store;
      GetManager(s', m.id).Some? && GetManager(s', m.id).value.name == m.name
  {
  }

  /** Deleting twice: the second delete finds nothing and changes nothing. */
  lemma DeleteAccountTwice(s: Store, id: Id)
    ensures var first := DeleteAccount(s, id);
      var second := DeleteAccount(first.store, id);
      !second.value && second.store == first.store
  {
  }

  /** Updating a manager and reading it back yields the new name, while the
      other managers and tables stay as they were. */
  lemma UpdateThenGetManager(s: Store, id: Id, m: ManagerBase)
    requires Valid(s) && id in s.managers
    ensures var s' := UpdateManager(s, id, m).store;
      GetManager(s', id) == Some(Manager(id, m.name))
  {
  }
}

=== FILE: decimal.dfy ===
/** ASCII decimal digit strings: the digit filter used by `pad2`, the numeric
    value of a digit string, `str(n)` for a natural number and Python's
    `str.zfill` on digit strings. */
module Decimal {

  predicate IsDigit(c: char) {
    '0' <= c <= '9'
  }

  predicate AllDigits(s: string) {
    forall i :: 0 <= i < |s| ==> IsDigit(s[i])
  }

  function DigitValue(c: char): (d: nat)
    requires IsDigit(c)
    ensures d < 10
  {
    c as int - '0' as int
  }

  function DigitChar(d: nat): (c: char)
    requires d < 10
    ensures IsDigit(c) && DigitValue(c) == d
  {
    ('0' as int + d) as char
  }

  function Pow10(k: nat): (p: nat)
    ensures p >= 1
  {
    if k == 0 then 1 else 10 * Pow10(k - 1)
  }

  /** The number a digit string spells, most significant digit first;
      leading zeros contribute nothing. */
  function Value(s: string): nat
    requires AllDigits(s)
    decreases |s|
  {
    if |s| == 0 then 0 else Value(s[..|s| - 1]) * 10 + DigitValue(s[|s| - 1])
  }

  /** A value spelled by `k` digits is below `10^k`. */
  lemma {:induction false} ValueBound(s: string)
    requires AllDigits(s)
    ensures Value(s) < Pow10(|s|)
    decreases |s|
  {
    if |s| > 0 {
      ValueBound(s[..|s| - 1]);
    }
  }

  /** The arithmetic step of `ValueAppend`: shifting by one more digit. */
  lemma {:induction false} ShiftOneDigit(x: nat, y: nat, d: nat, p: nat)
    ensures (x * p + y) * 10 + d == x * (10 * p) + (y * 10 + d)
  {
  }

  /** Appending digits shifts the value of the prefix. */
  lemma {:induction false} ValueAppend(a: string, b: string)
    requires AllDigits(a) && AllDigits(b)
    ensures AllDigits(a + b)
    ensures Value(a + b) == Value(a) * Pow10(|b|) + Value(b)
    decreases |b|
  {
    if |b| == 0 {
      assert a + b == a;
    } else {
      var n := |b| - 1;
      var c := a + b[..n];
      assert (a + b)[..|a + b| - 1] == c;
      assert (a + b)[|a + b| - 1] == b[n];
      ValueAppend(a, b[..n]);
      var x, y, d, p := Value(a), Value(b[..n]), DigitValue(b[n]), Pow10(n);
      assert Value(c) == x * p + y;
      assert Value(a + b) == Value(c) * 10 + d;
      assert b[..|b| - 1] == b[..n];
      assert Value(b) == y * 10 + d;
      assert Pow10(|b|) == 10 * p;
      ShiftOneDigit(x, y, d, p);
    }
  }

  /** A string of `k` zero characters. */
  function Zeros(k: nat): (z: string)
    ensures |z| == k && AllDigits(z)
    ensures forall i :: 0 <= i < k ==> z[i] == '0'
  {
    if k == 0 then "" else "0" + Zeros(k - 1)
  }

  lemma {:induction false} ZerosValue(k: nat)
    ensures Value(Zeros(k)) == 0
  {
    if k > 0 {
      assert Zeros(k)[..k - 1] == Zeros(k - 1);
      ZerosValue(k - 1);
    }
  }

  /** Python's `s.zfill(width)` for a string of digits (no sign to keep in
      front): zeros are added on the left until the string is `width` long. */
  function ZFill(s: string, width: nat): (r: string)
    requires AllDigits(s)
    ensures AllDigits(r)
    ensures |r| == if |s| >= width then |s| else width
    ensures r[|r| - |s|..] == s
    ensures forall i :: 0 <= i < |r| - |s| ==> r[i] == '0'
    ensures Value(r) == Value(s)
  {
    if |s| >= width then s
    else
      var z := Zeros(width - |s|);
      ZerosValue(width - |s|);
      ValueAppend(z, s);
      z + s
  }

  /** Python's `str(n)` for a natural number: the shortest decimal spelling. */
  function DecimalOf(n: nat): (s: string)
    ensures AllDigits(s) && |s| >= 1
    ensures Value(s) == n
    ensures |s| > 1 ==> s[0] != '0'
    decreases n
  {
    if n < 10 then [DigitChar(n)]
    else
      var p := DecimalOf(n / 10);
      var s := p + [DigitChar(n % 10)];
      assert s[..|s| - 1] == p;
      s
  }
}

=== FILE: lines.dfy ===
/** Line numbers of budget and actual items: `pad2` from main.py, which turns
    whatever the user typed into a two-digit line, and the numeric reading of
    a stored line that `next_line_for_account` relies on. */
module Lines {
  import opened Decimal

  /** The digits of `s`, in order, with every other character dropped. */
  function KeepDigits(s: string): (d: string)
    ensures AllDigits(d)
    ensures |d| <= |s|
    ensures AllDigits(s) ==> d == s
  {
    if |s| == 0 then ""
    else if IsDigit(s[0]) then [s[0]] + KeepDigits(s[1..])
    else KeepDigits(s[1..])
  }

  /** Digit filtering distributes over concatenation, so the digits of a
      string are those of its parts, in order. */
  lemma {:induction false} KeepDigitsAppend(a: string, b: string)
    ensures KeepDigits(a + b) == KeepDigits(a) + KeepDigits(b)
    decreases |a|
  {
    if |a| > 0 {
      assert (a + b)[1..] == a[1..] + b;
      KeepDigitsAppend(a[1..], b);
    } else {
      assert a + b == b;
    }
  }

  /** On a single character the filter keeps a digit and drops anything
      else; with `KeepDigitsAppend` this fixes the filter on every input. */
  lemma {:induction false} KeepDigitsOne(c: char)
    ensures KeepDigits([c]) == if IsDigit(c) then [c] else ""
  {
    assert [c][1..] == "";
  }

  /** `pad2`: keep the digits, left-pad with zeros to width two, keep the last
      two characters. */
  function Pad2(s: string): (r: string)
    ensures |r| == 2 && AllDigits(r)
  {
    var z := ZFill(KeepDigits(s), 2);
    z[|z| - 2..]
  }

  /** With at least two digits, `pad2` keeps the last two of them; with fewer,
      it pads the digits on the left with zeros. */
  lemma {:induction false} Pad2Shape(s: string)
    ensures var d := KeepDigits(s);
      if |d| >= 2 then Pad2(s) == d[|d| - 2..] else Pad2(s) == Zeros(2 - |d|) + d
  {
    var d := KeepDigits(s);
    var z := ZFill(d, 2);
    assert Pad2(s) == z[|z| - 2..];
    if |d| < 2 {
      assert z == Zeros(2 - |d|) + d;
      assert z[|z| - 2..] == z;
    }
  }

  lemma {:induction false} Mod100(x: nat, y: nat)
    requires y < 100
    ensures (x * 100 + y) % 100 == y
  {
  }

  /** With two digits or more, the last two carry the value modulo 100. */
  lemma {:induction false} LastTwoValue(d: string)
    requires AllDigits(d) && |d| >= 2
    ensures Value(d[|d| - 2..]) == Value(d) % 100
  {
    var hi, lo := d[..|d| - 2], d[|d| - 2..];
    assert d == hi + lo;
    ValueAppend(hi, lo);
    ValueBound(lo);
    assert Pow10(2) == 100;
    Mod100(Value(hi), Value(lo));
  }

  /** With fewer than two digits, zero-padding keeps the value, which is
      already below 100. */
  lemma {:induction false} PaddedValue(d: string)
    requires AllDigits(d) && |d| < 2
    ensures Value(Zeros(2 - |d|) + d) == Value(d) % 100
  {
    var z := Zeros(2 - |d|);
    ValueBound(d);
    assert Pow10(|d|) <= 10;
    ZerosValue(2 - |d|);
    ValueAppend(z, d);
  }

  /** `pad2` reads the digits as a number and keeps it modulo 100. */
  lemma {:induction false} Pad2Value(s: string)
    ensures Value(Pad2(s)) == Value(KeepDigits(s)) % 100
  {
    var d := KeepDigits(s);
    Pad2Shape(s);
    if |d| >= 2 {
      LastTwoValue(d);
    } else {
      PaddedValue(d);
    }
  }

  /** Normalising an already normalised line changes nothing. */
  lemma {:induction false} Pad2Idempotent(s: string)
    ensures Pad2(Pad2(s)) == Pad2(s)
  {
    var r := Pad2(s);
    assert KeepDigits(r) == r;
    assert ZFill(r, 2) == r;
  }

  /** Worked examples: a single digit gets a leading zero, an empty or
      digit-free input becomes "00", non-digits are dropped first. */
  lemma {:induction false} Pad2PadsShortLines()
    ensures Pad2("1") == "01"
    ensures Pad2("") == "00"
    ensures Pad2("a1-") == "01"
  {
    assert Zeros(1) + "1" == "01" by { assert Zeros(1) == "0"; }
    assert Zeros(2) + "" == "00" by { assert Zeros(2) == "00"; }
    assert KeepDigits("1") == "1" by { assert "1"[1..] == ""; }
    assert KeepDigits("a1-") == "1" by {
      assert KeepDigits("-") == "";
      assert "1-"[1..] == "-";
      assert KeepDigits("1-") == "1";
      assert "a1-"[1..] == "1-";
    }
    Pad2Shape("1");
    Pad2Shape("");
    Pad2Shape("a1-");
  }

  /** Worked examples: two digits stay as they are, longer inputs keep only
      their last two digits. */
  lemma {:induction false} Pad2KeepsLastTwo()
    ensures Pad2("23") == "23"
    ensures Pad2("123") == "23"
  {
    assert KeepDigits("23") == "23" by { assert AllDigits("23"); }
    assert KeepDigits("123") == "123" by { assert AllDigits("123"); }
    Pad2Shape("23");
    Pad2Shape("123");
  }

  /** The longest prefix of `s` made of digits. */
  function LeadingDigits(s: string): (p: string)
    ensures AllDigits(p) && p <= s
    ensures |p| < |s| ==> !IsDigit(s[|p|])
    ensures AllDigits(s) ==> p == s
  {
    if |s| == 0 || !IsDigit(s[0]) then "" else [s[0]] + LeadingDigits(s[1..])
  }

  /** The number SQLite's `CAST(line AS REAL)` yields for a line that starts
      with digits (and 0 for one that does not), already truncated to an
      integer as `int(...)` does. */
  function LineValue(line: string): (n: nat)
    ensures AllDigits(line) ==> n == Value(line)
  {
    Value(LeadingDigits(line))
  }
}

=== FILE: models.dfy ===
/** The four persisted records of models.py. A column declared
    `nullable=False` is a plain field; a nullable column is an `Option`. */
module Models {
  import opened Wrappers

  /** Primary keys are opaque strings (the application mints uuid4 text). */
  type Id = string

  datatype Manager = Manager(id: Id, name: string)

  /** `key` is the general-ledger account code, unique across accounts;
      `managerId` is a nullable reference to a manager that SQLite does not
      enforce. */
  datatype Account = Account(id: Id, key: string, description: string, managerId: Option<Id>)

  /** (acct5, line, datefrom) is a unique constraint of the table. */
  datatype BudgetItem = BudgetItem(
    id: Id, acct5: string, line: string, description: string, amount: real,
    datefrom: Option<string>, dateto: Option<string>)

  /** Actual items carry no uniqueness constraint besides their id; `seqNo`
      is the `seq` column, an ordering number normally spaced by 5. */
  datatype ActualItem = ActualItem(
    id: Id, acct5: string, line: string, trDate: Option<string>, description: string,
    amount: real, seqNo: Option<real>)

  /** The composite key budget and actual items are reconciled on. */
  datatype LineKey = LineKey(acct5: string, line: string)

  function BudgetKey(b: BudgetItem): LineKey {
    LineKey(b.acct5, b.line)
  }

  function ActualKey(a: ActualItem): LineKey {
    LineKey(a.acct5, a.line)
  }
}

=== FILE: ordering.dfy ===
/** Python's ordering of `(acct5, line)` tuples of strings, and the sort the
    line-item view applies to its rows. Strings compare code point by code
    point, and a proper prefix sorts first, so "10" precedes "2". */
module Ordering {
  import opened Models

  /** Python's `a <= b` on strings. */
  predicate StrLe(a: string, b: string)
    decreases |a|
  {
    |a| == 0 || (|b| > 0 && (a[0] < b[0] || (a[0] == b[0] && StrLe(a[1..], b[1..]))))
  }

  lemma {:induction false} StrLeTotal(a: string, b: string)
    ensures StrLe(a, b) || StrLe(b, a)
    decreases |a|
  {
    if |a| > 0 && |b| > 0 && a[0] == b[0] {
      StrLeTotal(a[1..], b[1..]);
    }
  }

  lemma {:induction false} StrLeAntisymmetric(a: string, b: string)
    requires StrLe(a, b) && StrLe(b, a)
    ensures a == b
    decreases |a|
  {
    if |a| > 0 {
      StrLeAntisymmetric(a[1..], b[1..]);
      assert a == [a[0]] + a[1..] && b == [b[0]] + b[1..];
    }
  }

  lemma {:induction false} StrLeTransitive(a: string, b: string, c: string)
    requires StrLe(a, b) && StrLe(b, c)
    ensures StrLe(a, c)
    decreases |a|
  {
    if |a| > 0 && a[0] == b[0] && b[0] == c[0] {
      StrLeTransitive(a[1..], b[1..], c[1..]);
    }
  }

  /** Python's `(x.acct5, x.line) <= (y.acct5, y.line)`: the first
      components decide unless they are equal. */
  predicate KeyLe(x: LineKey, y: LineKey) {
    if x.acct5 == y.acct5 then StrLe(x.line, y.line) else StrLe(x.acct5, y.acct5)
  }

  predicate KeyLt(x: LineKey, y: LineKey) {
    KeyLe(x, y) && x != y
  }

  lemma KeyLeTotal(x: LineKey, y: LineKey)
    ensures KeyLe(x, y) || KeyLe(y, x)
  {
    StrLeTotal(x.acct5, y.acct5);
    StrLeTotal(x.line, y.line);
  }

  lemma KeyLtTransitive(x: LineKey, y: LineKey, z: LineKey)
    requires KeyLt(x, y) && KeyLt(y, z)
    ensures KeyLt(x, z)
  {
    if x.acct5 == y.acct5 && y.acct5 == z.acct5 {
      StrLeTransitive(x.line, y.line, z.line);
      if x == z {
        StrLeAntisymmetric(x.line, y.line);
      }
    } else if x.acct5 == y.acct5 {
      assert StrLe(y.acct5, z.acct5);
    } else if y.acct5 == z.acct5 {
      assert StrLe(x.acct5, y.acct5);
    } else {
      StrLeTransitive(x.acct5, y.acct5, z.acct5);
      if x.acct5 == z.acct5 {
        StrLeAntisymmetric(x.acct5, y.acct5);
      }
    }
  }

  /** "10" sorts before "2": the order is textual, not numeric. */
  lemma TextualNotNumeric(acct5: string)
    ensures KeyLt(LineKey(acct5, "10"), LineKey(acct5, "2"))
    ensures !KeyLe(LineKey(acct5, "2"), LineKey(acct5, "10"))
  {
  }

  /** Each key strictly below the next one. */
  predicate StrictlySorted(s: seq<LineKey>) {
    forall i :: 0 <= i < |s| - 1 ==> KeyLt(s[i], s[i + 1])
  }

  predicate Distinct(s: seq<LineKey>) {
    forall i, j :: 0 <= i < j < |s| ==> s[i] != s[j]
  }

  /** A strictly sorted sequence is ascending between any two positions, and
      so holds no key twice. */
  lemma {:induction false} StrictlySortedAscending(s: seq<LineKey>)
    requires StrictlySorted(s)
    ensures forall i, j :: 0 <= i < j < |s| ==> KeyLt(s[i], s[j])
    ensures Distinct(s)
    decreases |s|
  {
    if |s| > 1 {
      var t := s[1..];
      StrictlySortedAscending(t);
      forall i, j | 0 <= i < j < |s|
        ensures KeyLt(s[i], s[j])
      {
        if i > 0 {
          assert s[i] == t[i - 1] && s[j] == t[j - 1];
        } else if j > 1 {
          assert s[1] == t[0] && s[j] == t[j - 1];
          KeyLtTransitive(s[0], s[1], s[j]);
        }
      }
    }
  }

  /** Insertion of a new key into a strictly sorted sequence. */
  function Insert(x: LineKey, s: seq<LineKey>): (r: seq<LineKey>)
    requires StrictlySorted(s) && x !in s
    ensures StrictlySorted(r)
    ensures |r| == |s| + 1
    ensures forall y :: y in r <==> y == x || y in s
    ensures r[0] == x || r[0] == s[0]
  {
    if |s| == 0 then [x]
    else if KeyLe(x, s[0]) then [x] + s
    else
      KeyLeTotal(x, s[0]);
      [s[0]] + Insert(x, s[1..])
  }

  /** Insertion sort of distinct keys: the result holds the same keys in
      strictly ascending order. */
  function Sort(s: seq<LineKey>): (r: seq<LineKey>)
    requires Distinct(s)
    ensures StrictlySorted(r)
    ensures |r| == |s|
    ensures forall y :: y in r <==> y in s
  {
    if |s| == 0 then []
    else
      var init := s[..|s| - 1];
      assert forall y :: y in init ==> y in s;
      Insert(s[|s| - 1], Sort(init))
  }

  lemma SameKeysBothEmpty(a: seq<LineKey>, b: seq<LineKey>)
    requires forall y :: y in a <==> y in b
    ensures |a| == 0 <==> |b| == 0
  {
    if |a| > 0 {
      assert a[0] in b;
    }
    if |b| > 0 {
      assert b[0] in a;
    }
  }

  /** Two strictly ascending sequences holding the same keys are equal: the
      sorted order of a set of distinct keys is unique, so the rows come out
      the same whatever order the dict was filled in. */
  lemma {:induction false} SortedOrderUnique(a: seq<LineKey>, b: seq<LineKey>)
    requires StrictlySorted(a) && StrictlySorted(b)
    requires forall y :: y in a <==> y in b
    ensures a == b
    decreases |a|
  {
    StrictlySortedAscending(a);
    StrictlySortedAscending(b);
    SameKeysBothEmpty(a, b);
    if |a| > 0 {
      assert a[0] == b[0] by {
        if a[0] != b[0] {
          assert a[0] in b && b[0] in a;
          var i :| 0 <= i < |b| && b[i] == a[0];
          var j :| 0 <= j < |a| && a[j] == b[0];
          assert i > 0 && j > 0;
          assert KeyLt(b[0], b[i]) && KeyLt(a[0], a[j]);
          KeyLtTransitive(a[0], b[0], a[0]);
          assert false;
        }
      }
      var a', b' := a[1..], b[1..];
      forall y
        ensures y in a' <==> y in b'
      {
        if y in a' {
          var i :| 0 <= i < |a'| && a'[i] == y;
          assert a[i + 1] == y && y != a[0];
          assert y in b;
          var k :| 0 <= k < |b| && b[k] == y;
          assert k != 0;
          assert b'[k - 1] == y;
        }
        if y in b' {
          var i :| 0 <= i < |b'| && b'[i] == y;
          assert b[i + 1] == y && y != b[0];
          assert y in a;
          var k :| 0 <= k < |a| && a[k] == y;
          assert k != 0;
          assert a'[k - 1] == y;
        }
      }
      SortedOrderUnique(a', b');
      assert a == [a[0]] + a' && b == [b[0]] + b';
    }
  }
}

=== FILE: reconcile.dfy ===
/** The budget-versus-actual line-item view of main.py: budget and actual
    items are joined on (acct5, line) into one row per key, carrying the
    budget amount, the actual amount, both descriptions and the variance, and
    the rows are sorted by key. The home page accumulates the actual amounts
    of a key; the actual-item edit page overwrites them (see `Mode`). */
module Reconcile {
  import opened Wrappers
  import opened Models
  import opened Ordering

  /** The fields of a budget or actual item the view reads. */
  datatype Posting = Posting(acct5: string, line: string, description: string, amount: real)

  function KeyOf(p: Posting): LineKey {
    LineKey(p.acct5, p.line)
  }

  function FromBudget(b: BudgetItem): (p: Posting)
    ensures KeyOf(p) == BudgetKey(b)
  {
    Posting(b.acct5, b.line, b.description, b.amount)
  }

  function FromActual(a: ActualItem): (p: Posting)
    ensures KeyOf(p) == ActualKey(a)
  {
    Posting(a.acct5, a.line, a.description, a.amount)
  }

  /** How a second actual item of a key combines with the row: `Accumulate`
      adds its amount (the home page and the manager and account edit pages),
      `Overwrite` replaces the amount (the actual-item edit page). */
  datatype Mode = Accumulate | Overwrite

  // ---------------------------------------------------------------------
  // Reference definitions: what a row should hold, read off the inputs.
  // ---------------------------------------------------------------------

  /** The last posting of `ps` with key `k`, if any. */
  function LastWith(ps: seq<Posting>, k: LineKey): (r: Option<Posting>)
    ensures r.Some? ==> r.value in ps && KeyOf(r.value) == k
    ensures r.None? ==> forall p :: p in ps ==> KeyOf(p) != k
    decreases |ps|
  {
    if |ps| == 0 then None
    else if KeyOf(ps[|ps| - 1]) == k then Some(ps[|ps| - 1])
    else
      assert forall p :: p in ps ==> p in ps[..|ps| - 1] || p == ps[|ps| - 1];
      LastWith(ps[..|ps| - 1], k)
  }

  /** The total amount of the postings of `ps` with key `k`. */
  function SumWith(ps: seq<Posting>, k: LineKey): real
    decreases |ps|
  {
    if |ps| == 0 then 0.0
    else SumWith(ps[..|ps| - 1], k) + (if KeyOf(ps[|ps| - 1]) == k then ps[|ps| - 1].amount else 0.0)
  }

  function DescOf(p: Option<Posting>): Option<string> {
    match p
    case Some(q) => Some(q.description)
    case None => None
  }

  function AmountOf(p: Option<Posting>): real {
    match p
    case Some(q) => q.amount
    case None => 0.0
  }

  /** A key occurs in the view exactly when some budget or actual item has it. */
  predicate InSources(budget: seq<Posting>, actuals: seq<Posting>, k: LineKey) {
    LastWith(budget, k).Some? || LastWith(actuals, k).Some?
  }

  /** The entry the view should show for key `k`: the last budget item's
      description and amount (no summing of budget items), the actual total
      or the last actual amount depending on `mode`, and the last actual
      item's description. */
  function Expected(budget: seq<Posting>, actuals: seq<Posting>, k: LineKey, mode: Mode): Entry {
    Entry(
      DescOf(LastWith(budget, k)),
      AmountOf(LastWith(budget, k)),
      if mode == Accumulate then SumWith(actuals, k) else AmountOf(LastWith(actuals, k)),
      DescOf(LastWith(actuals, k)))
  }

  // ---------------------------------------------------------------------
  // The computation, as main.py performs it.
  // ---------------------------------------------------------------------

  /** One value of the `joined` dict. */
  datatype Entry = Entry(budgetDesc: Option<string>, budget: real, actual: real, actualDesc: Option<string>)

  /** A Python dict: its keys in insertion order, and the key-to-value map. */
  datatype Joined = Joined(order: seq<LineKey>, entries: map<LineKey, Entry>)

  ghost predicate WellFormed(j: Joined) {
    Distinct(j.order) && forall k :: k in j.order <==> k in j.entries
  }

  /** `joined[k] = e`: a new key goes to the end of the insertion order, an
      existing key keeps its place. */
  function Put(j: Joined, k: LineKey, e: Entry): (r: Joined)
    requires WellFormed(j)
    ensures WellFormed(r)
    ensures r.entries == j.entries[k := e]
  {
    if k in j.entries then Joined(j.order, j.entries[k := e])
    else Joined(j.order + [k], j.entries[k := e])
  }

  /** `budget_lookup`: each key of a budget item mapped to the description of
      the last budget item with that key. */
  function BudgetLookup(budget: seq<Posting>): (m: map<LineKey, string>)
    decreases |budget|
  {
    if |budget| == 0 then map[]
    else
      var b := budget[|budget| - 1];
      BudgetLookup(budget[..|budget| - 1])[KeyOf(b) := b.description]
  }

  /** The first loop: one entry per budget key, a later budget item of the
      same key replacing the earlier one. */
  function SeedBudget(budget: seq<Posting>): (j: Joined)
    ensures WellFormed(j)
    decreases |budget|
  {
    if |budget| == 0 then Joined([], map[])
    else
      var b := budget[|budget| - 1];
      Put(SeedBudget(budget[..|budget| - 1]), KeyOf(b), Entry(Some(b.description), b.amount, 0.0, None))
  }

  /** The second loop: a new key gets a row with no budget amount and the
      looked-up budget description; a known key has its actual amount added to
      or replaced, and its actual description replaced. */
  function AddActuals(start: Joined, lookup: map<LineKey, string>, actuals: seq<Posting>, mode: Mode): (j: Joined)
    requires WellFormed(start)
    ensures WellFormed(j)
    decreases |actuals|
  {
    if |actuals| == 0 then start
    else
      var j := AddActuals(start, lookup, actuals[..|actuals| - 1], mode);
      var a := actuals[|actuals| - 1];
      var k := KeyOf(a);
      if k !in j.entries then
        Put(j, k, Entry(if k in lookup then Some(lookup[k]) else None, 0.0, a.amount, Some(a.description)))
      else
        var e := j.entries[k];
        Put(j, k, e.(actual := if mode == Accumulate then e.actual + a.amount else a.amount,
                     actualDesc := Some(a.description)))
  }

  /** One row of the view. */
  datatype Row = Row(
    acct5: string, line: string, budget: real, actual: real, variance: real,
    budgetDesc: Option<string>, actualDesc: Option<string>)

  function RowKey(r: Row): LineKey {
    LineKey(r.acct5, r.line)
  }

  function EntryOf(r: Row): Entry {
    Entry(r.budgetDesc, r.budget, r.actual, r.actualDesc)
  }

  function MakeRow(k: LineKey, e: Entry): (r: Row)
    ensures RowKey(r) == k && EntryOf(r) == e
    ensures r.variance == r.budget - r.actual
  {
    Row(k.acct5, k.line, e.budget, e.actual, e.budget - e.actual, e.budgetDesc, e.actualDesc)
  }

  /** The whole view: both loops, then the rows of the dict sorted by key. */
  function Join(budget: seq<Posting>, actuals: seq<Posting>, mode: Mode): (rows: seq<Row>)
    ensures forall i :: 0 <= i < |rows| ==> rows[i].variance == rows[i].budget - rows[i].actual
  {
    var j := AddActuals(SeedBudget(budget), BudgetLookup(budget), actuals, mode);
    var keys := Sort(j.order);
    seq(|keys|, i requires 0 <= i < |keys| => MakeRow(keys[i], j.entries[keys[i]]))
  }

  /** The postings of listed budget items, in listing order. */
  function BudgetPostings(items: seq<BudgetItem>): (ps: seq<Posting>)
    ensures |ps| == |items|
    ensures forall i :: 0 <= i < |items| ==> KeyOf(ps[i]) == BudgetKey(items[i])
  {
    seq(|items|, i requires 0 <= i < |items| => FromBudget(items[i]))
  }

  /** The postings of listed actual items, in listing order. */
  function ActualPostings(items: seq<ActualItem>): (ps: seq<Posting>)
    ensures |ps| == |items|
    ensures forall i :: 0 <= i < |items| ==> KeyOf(ps[i]) == ActualKey(items[i])
  {
    seq(|items|, i requires 0 <= i < |items| => FromActual(items[i]))
  }

  /** The home page's view of the listed budget and actual items (main.py reads
      `list_budget` and `list_actuals` and accumulates actual amounts). */
  function HomeView(budget: seq<BudgetItem>, actuals: seq<ActualItem>): (rows: seq<Row>)
    ensures forall i :: 0 <= i < |rows| ==> rows[i].variance == rows[i].budget - rows[i].actual
  {
    Join(BudgetPostings(budget), ActualPostings(actuals), Accumulate)
  }
}

module ReconcileProofs {
  import opened Wrappers
  import opened Models
  import opened Ordering
  import opened Reconcile

  lemma {:induction false} SumWithAbsent(ps: seq<Posting>, k: LineKey)
    requires LastWith(ps, k).None?
    ensures SumWith(ps, k) == 0.0
    decreases |ps|
  {
    if |ps| > 0 {
      SumWithAbsent(ps[..|ps| - 1], k);
    }
  }

  /** `budget_lookup` knows exactly the budget keys, each with the last
      budget description. */
  lemma {:induction false} BudgetLookupSpec(budget: seq<Posting>, k: LineKey)
    ensures k in BudgetLookup(budget) <==> LastWith(budget, k).Some?
    ensures k in BudgetLookup(budget) ==> Some(BudgetLookup(budget)[k]) == DescOf(LastWith(budget, k))
    decreases |budget|
  {
    if |budget| > 0 {
      BudgetLookupSpec(budget[..|budget| - 1], k);
    }
  }

  /** After the first loop, the budget keys are present, each with the last
      budget item's description and amount and no actual yet. */
  lemma {:induction false} SeedBudgetSpec(budget: seq<Posting>, k: LineKey)
    ensures k in SeedBudget(budget).entries <==> LastWith(budget, k).Some?
    ensures k in SeedBudget(budget).entries ==>
      SeedBudget(budget).entries[k] == Expected(budget, [], k, Accumulate)
    decreases |budget|
  {
    if |budget| > 0 {
      SeedBudgetSpec(budget[..|budget| - 1], k);
    }
  }

  /** After the second loop, the keys are those of either source, and each
      entry is the expected one. */
  lemma {:induction false} AddActualsSpec(budget: seq<Posting>, actuals: seq<Posting>, mode: Mode, k: LineKey)
    ensures var j := AddActuals(SeedBudget(budget), BudgetLookup(budget), actuals, mode);
      && (k in j.entries <==> InSources(budget, actuals, k))
      && (k in j.entries ==> j.entries[k] == Expected(budget, actuals, k, mode))
    decreases |actuals|
  {
    var start, lookup := SeedBudget(budget), BudgetLookup(budget);
    if |actuals| == 0 {
      SeedBudgetSpec(budget, k);
      assert SumWith([], k) == 0.0;
    } else {
      var pre := actuals[..|actuals| - 1];
      var a := actuals[|actuals| - 1];
      AddActualsSpec(budget, pre, mode, k);
      var j0 := AddActuals(start, lookup, pre, mode);
      assert KeyOf(a) == k ==> LastWith(actuals, k) == Some(a);
      assert KeyOf(a) != k ==> LastWith(actuals, k) == LastWith(pre, k);
      if KeyOf(a) == k && k !in j0.entries {
        BudgetLookupSpec(budget, k);
        SumWithAbsent(pre, k);
      }
    }
  }

  /** Every key of a budget or actual item appears in the view, and no other
      key does. */
  lemma JoinCoversSources(budget: seq<Posting>, actuals: seq<Posting>, mode: Mode)
    ensures var rows := Join(budget, actuals, mode);
      && (forall i :: 0 <= i < |rows| ==> InSources(budget, actuals, RowKey(rows[i])))
      && (forall k :: InSources(budget, actuals, k) ==> exists i :: 0 <= i < |rows| && RowKey(rows[i]) == k)
  {
    var j := AddActuals(SeedBudget(budget), BudgetLookup(budget), actuals, mode);
    var keys := Sort(j.order);
    var rows := Join(budget, actuals, mode);
    assert |rows| == |keys|;
    forall i | 0 <= i < |rows|
      ensures InSources(budget, actuals, RowKey(rows[i]))
    {
      assert RowKey(rows[i]) == keys[i];
      AddActualsSpec(budget, actuals, mode, keys[i]);
    }
    forall k | InSources(budget, actuals, k)
      ensures exists i :: 0 <= i < |rows| && RowKey(rows[i]) == k
    {
      AddActualsSpec(budget, actuals, mode, k);
      assert k in keys;
      var i :| 0 <= i < |keys| && keys[i] == k;
      assert RowKey(rows[i]) == k;
    }
  }

  /** The rows are in strictly ascending (acct5, line) order, so no key
      appears twice. */
  lemma JoinSorted(budget: seq<Posting>, actuals: seq<Posting>, mode: Mode)
    ensures var rows := Join(budget, actuals, mode);
      forall i, j :: 0 <= i < j < |rows| ==> KeyLt(RowKey(rows[i]), RowKey(rows[j]))
  {
    var jn := AddActuals(SeedBudget(budget), BudgetLookup(budget), actuals, mode);
    var keys := Sort(jn.order);
    var rows := Join(budget, actuals, mode);
    StrictlySortedAscending(keys);
    forall i, j | 0 <= i < j < |rows|
      ensures KeyLt(RowKey(rows[i]), RowKey(rows[j]))
    {
      assert RowKey(rows[i]) == keys[i] && RowKey(rows[j]) == keys[j];
    }
  }

  /** Each row carries the expected amounts and descriptions of its key. */
  lemma JoinRowContents(budget: seq<Posting>, actuals: seq<Posting>, mode: Mode)
    ensures var rows := Join(budget, actuals, mode);
      forall i :: 0 <= i < |rows| ==> EntryOf(rows[i]) == Expected(budget, actuals, RowKey(rows[i]), mode)
  {
    var jn := AddActuals(SeedBudget(budget), BudgetLookup(budget), actuals, mode);
    var keys := Sort(jn.order);
    var rows := Join(budget, actuals, mode);
    forall i | 0 <= i < |rows|
      ensures EntryOf(rows[i]) == Expected(budget, actuals, RowKey(rows[i]), mode)
    {
      AddActualsSpec(budget, actuals, mode, keys[i]);
      assert rows[i] == MakeRow(keys[i], jn.entries[keys[i]]);
    }
  }

  /** A key found only among the actual items has no budget amount and no
      budget description. */
  lemma ActualOnlyRow(budget: seq<Posting>, actuals: seq<Posting>, mode: Mode)
    ensures var rows := Join(budget, actuals, mode);
      forall i :: 0 <= i < |rows| && LastWith(budget, RowKey(rows[i])).None? ==>
        rows[i].budget == 0.0 && rows[i].budgetDesc.None? && rows[i].actualDesc.Some?
  {
    JoinRowContents(budget, actuals, mode);
    JoinCoversSources(budget, actuals, mode);
  }

  /** With accumulation (the home page), a row's actual amount is the total of
      every actual item of its key. */
  lemma AccumulateSumsActuals(budget: seq<Posting>, actuals: seq<Posting>)
    ensures var rows := Join(budget, actuals, Accumulate);
      forall i :: 0 <= i < |rows| ==> rows[i].actual == SumWith(actuals, RowKey(rows[i]))
  {
    JoinRowContents(budget, actuals, Accumulate);
  }

  /** With overwriting (the actual-item edit page), a row's actual amount is
      that of the last actual item of its key alone. */
  lemma OverwriteKeepsLastActual(budget: seq<Posting>, actuals: seq<Posting>)
    ensures var rows := Join(budget, actuals, Overwrite);
      forall i :: 0 <= i < |rows| ==> rows[i].actual == AmountOf(LastWith(actuals, RowKey(rows[i])))
  {
    JoinRowContents(budget, actuals, Overwrite);
  }

  lemma FirstTwoKeysDiffer(rows: seq<Row>)
    requires forall i, j :: 0 <= i < j < |rows| ==> KeyLt(RowKey(rows[i]), RowKey(rows[j]))
    ensures |rows| >= 2 ==> RowKey(rows[0]) != RowKey(rows[1])
  {
  }

  /** A view over postings that all share one key has exactly one row. */
  lemma {:induction false} SingleKeyView(budget: seq<Posting>, actuals: seq<Posting>, mode: Mode, k: LineKey)
    requires InSources(budget, actuals, k)
    requires forall p :: p in budget ==> KeyOf(p) == k
    requires forall p :: p in actuals ==> KeyOf(p) == k
    ensures |Join(budget, actuals, mode)| == 1
    ensures RowKey(Join(budget, actuals, mode)[0]) == k
  {
    var rows := Join(budget, actuals, mode);
    JoinCoversSources(budget, actuals, mode);
    JoinSorted(budget, actuals, mode);
    forall i | 0 <= i < |rows|
      ensures RowKey(rows[i]) == k
    {
      var r := RowKey(rows[i]);
      assert InSources(budget, actuals, r);
      if LastWith(budget, r).Some? {
        assert KeyOf(LastWith(budget, r).value) == k;
      } else {
        assert KeyOf(LastWith(actuals, r).value) == k;
      }
    }
    FirstTwoKeysDiffer(rows);
  }

  /** Two actual items of one key, 100 then 50: the home page shows 150 and
      the second description. */
  lemma AccumulateExample()
    ensures var acts := [Posting("52100", "01", "first", 100.0), Posting("52100", "01", "second", 50.0)];
      var rows := Join([], acts, Accumulate);
      |rows| == 1 && rows[0].actual == 150.0 && rows[0].actualDesc == Some("second")
      && rows[0].budget == 0.0 && rows[0].variance == -150.0
  {
    var k := LineKey("52100", "01");
    var acts := [Posting("52100", "01", "first", 100.0), Posting("52100", "01", "second", 50.0)];
    assert LastWith(acts, k) == Some(acts[1]);
    assert acts[..1] == [acts[0]] && [acts[0]][..0] == [];
    assert SumWith(acts, k) == 150.0;
    SingleKeyView([], acts, Accumulate, k);
    JoinRowContents([], acts, Accumulate);
  }

  /** The same two actual items on the actual-item edit page: the row shows 50,
      so the 100 is lost and the variance disagrees with the home page's. */
  lemma OverwriteDropsEarlierAmounts()
    ensures var acts := [Posting("52100", "01", "first", 100.0), Posting("52100", "01", "second", 50.0)];
      var rows := Join([], acts, Overwrite);
      |rows| == 1 && rows[0].actual == 50.0 && rows[0].variance == -50.0
      && rows[0].actual != SumWith(acts, RowKey(rows[0]))
  {
    var k := LineKey("52100", "01");
    var acts := [Posting("52100", "01", "first", 100.0), Posting("52100", "01", "second", 50.0)];
    assert LastWith(acts, k) == Some(acts[1]);
    assert acts[..1] == [acts[0]] && [acts[0]][..0] == [];
    assert SumWith(acts, k) == 150.0;
    SingleKeyView([], acts, Overwrite, k);
    JoinRowContents([], acts, Overwrite);
  }

  /** Several budget items of one key: the last one's amount and description
      are shown, not a total. */
  lemma LastBudgetItemWins()
    ensures var bud := [Posting("52100", "01", "old", 10.0), Posting("52100", "01", "new", 30.0)];
      var rows := Join(bud, [], Accumulate);
      |rows| == 1 && rows[0].budget == 30.0 && rows[0].budgetDesc == Some("new")
      && rows[0].actual == 0.0 && rows[0].actualDesc == None
  {
    var k := LineKey("52100", "01");
    var bud := [Posting("52100", "01", "old", 10.0), Posting("52100", "01", "new", 30.0)];
    assert LastWith(bud, k) == Some(bud[1]);
    SingleKeyView(bud, [], Accumulate, k);
    JoinRowContents(bud, [], Accumulate);
  }

  /** A key some posting carries is found by `LastWith`. */
  lemma PostingKeyFound(ps: seq<Posting>, j: int)
    requires 0 <= j < |ps|
    ensures LastWith(ps, KeyOf(ps[j])).Some?
  {
    assert ps[j] in ps;
  }

  /** A key `LastWith` finds is carried by some posting. */
  lemma FoundKeyHasIndex(ps: seq<Posting>, k: LineKey) returns (j: int)
    requires LastWith(ps, k).Some?
    ensures 0 <= j < |ps| && KeyOf(ps[j]) == k
  {
    j :| 0 <= j < |ps| && ps[j] == LastWith(ps, k).value;
  }

  /** Every listed budget or actual item has a row on the home page under its
      (acct5, line) key, and every row's key is that of some listed item. */
  lemma HomeViewCoversItems(budget: seq<BudgetItem>, actuals: seq<ActualItem>)
    ensures var rows := HomeView(budget, actuals);
      && (forall j :: 0 <= j < |budget| ==> exists i :: 0 <= i < |rows| && RowKey(rows[i]) == BudgetKey(budget[j]))
      && (forall j :: 0 <= j < |actuals| ==> exists i :: 0 <= i < |rows| && RowKey(rows[i]) == ActualKey(actuals[j]))
      && (forall i :: 0 <= i < |rows| ==>
            (exists j :: 0 <= j < |budget| && BudgetKey(budget[j]) == RowKey(rows[i]))
            || (exists j :: 0 <= j < |actuals| && ActualKey(actuals[j]) == RowKey(rows[i])))
  {
    var bp, ap := BudgetPostings(budget), ActualPostings(actuals);
    var rows := HomeView(budget, actuals);
    JoinCoversSources(bp, ap, Accumulate);
    forall j | 0 <= j < |budget|
      ensures InSources(bp, ap, BudgetKey(budget[j]))
    {
      PostingKeyFound(bp, j);
    }
    forall j | 0 <= j < |actuals|
      ensures InSources(bp, ap, ActualKey(actuals[j]))
    {
      PostingKeyFound(ap, j);
    }
    forall i | 0 <= i < |rows|
      ensures (exists j :: 0 <= j < |budget| && BudgetKey(budget[j]) == RowKey(rows[i]))
              || (exists j :: 0 <= j < |actuals| && ActualKey(actuals[j]) == RowKey(rows[i]))
    {
      var k := RowKey(rows[i]);
      if LastWith(bp, k).Some? {
        var j := FoundKeyHasIndex(bp, k);
      } else {
        var j := FoundKeyHasIndex(ap, k);
      }
    }
  }

  /** Two budget items listed on one key, and no actual items: one row,
      showing the budget amount of whichever item is listed second. */
  lemma TwoBudgetItemsOneKey(b1: BudgetItem, b2: BudgetItem)
    requires BudgetKey(b1) == BudgetKey(b2)
    ensures |HomeView([b1, b2], [])| == 1
    ensures HomeView([b1, b2], [])[0].budget == b2.amount
  {
    var k := BudgetKey(b1);
    var bp := BudgetPostings([b1, b2]);
    var ap := ActualPostings([]);
    assert ap == [];
    assert bp == [FromBudget(b1), FromBudget(b2)];
    assert LastWith(bp, k) == Some(bp[1]);
    SingleKeyView(bp, ap, Accumulate, k);
    JoinRowContents(bp, ap, Accumulate);
  }

  /** `list_budget` has no ORDER BY, and the listing order decides a row's
      contents when two budget items share a key: the same two items listed
      the other way round show a different budget amount. */
  lemma ListingOrderDecidesRow()
    ensures var b1 := BudgetItem("i1", "52100", "01", "old", 10.0, None, None);
      var b2 := BudgetItem("i2", "52100", "01", "new", 30.0, None, None);
      HomeView([b1, b2], []) != HomeView([b2, b1], [])
  {
    var b1 := BudgetItem("i1", "52100", "01", "old", 10.0, None, None);
    var b2 := BudgetItem("i2", "52100", "01", "new", 30.0, None, None);
    TwoBudgetItemsOneKey(b1, b2);
    TwoBudgetItemsOneKey(b2, b1);
  }
}

=== FILE: schemas.dfy ===
/** The request shapes of schemas.py. The `*Base` shapes are what an update
    carries and have no id; the `*Create` shapes add the id of the new record.
    Pydantic's checks that the model's types do not already enforce are the
    parsing functions below. */
module Schemas {
  import opened Wrappers
  import opened Models

  /** `Field(..., min_length=1)`. */
  type NonEmptyString = s: string | |s| >= 1 witness "?"

  datatype ManagerBase = ManagerBase(name: NonEmptyString)

  datatype ManagerCreate = ManagerCreate(id: Id, name: NonEmptyString)

  /** `manager_id` is optional; omitting it means `None`. */
  datatype AccountBase = AccountBase(key: string, description: string, managerId: Option<Id>)

  datatype AccountCreate = AccountCreate(id: Id, key: string, description: string, managerId: Option<Id>)

  /** Shared by budget and actual items. There is no `tr_date` field, so a
      transaction date never reaches the store through these shapes; `seqNo`
      (the `seq` field) is optional, and its absence asks the store to
      assign one. */
  datatype LineItemBase = LineItemBase(
    acct5: string, line: string, description: string, amount: real, seqNo: Option<real>)

  datatype LineItemCreate = LineItemCreate(
    id: Id, acct5: string, line: string, description: string, amount: real, seqNo: Option<real>)

  datatype ValidationError = TooShort(field: string)

  /** Validating `ManagerBase(name=...)`: an empty name is rejected. */
  function ParseManagerBase(name: string): (r: Result<ManagerBase, ValidationError>)
    ensures r.Ok? <==> name != ""
    ensures r.Ok? ==> r.value.name == name
    ensures r.Err? ==> r.error == TooShort("name")
  {
    if |name| >= 1 then Ok(ManagerBase(name)) else Err(TooShort("name"))
  }

  /** Validating `ManagerCreate(id=..., name=...)`. */
  function ParseManagerCreate(id: Id, name: string): (r: Result<ManagerCreate, ValidationError>)
    ensures r.Ok? <==> name != ""
    ensures r.Ok? ==> r.value.id == id && r.value.name == name
  {
    match ParseManagerBase(name)
    case Ok(base) => Ok(ManagerCreate(id, base.name))
    case Err(e) => Err(e)
  }
}

=== FILE: wrappers.dfy ===
/** Wrappers used throughout the model: `Option` stands for Python's `None` /
    JavaScript's `null`, `Result` for a call that either commits or raises. */
module Wrappers {

  datatype Option<+T> = None | Some(value: T)

  datatype Result<+T, +E> = Ok(value: T) | Err(error: E)
}
